=== FILE: README.md ===
# Hotel booking back-end: a Dafny model

This project models the core of a hotel and lodge booking back-end, a REST API over a relational store. It covers:

- the booking ledger: creating a booking (validation cascade, conflict query, pricing, the booking reference) and the admin status update and delete;
- the room availability reconciler, both per room and as the hourly sweep;
- the admin guards for rooms, categories, users and settings;
- registration and login.

Every table is an immutable value. Rows with an `AUTO_INCREMENT` key live in a `Tables.Table` (a map from id to row plus the next id). Bookings are keyed by their string reference, settings by their key. Each route handler is a pure function from the database to a `Result`, and each HTTP error class is a variant of `Results.ApiError`, carrying the route's message text.

Some inputs are not computed by the route code itself, so they become parameters:

- dates are integer day numbers, and each "today" is passed in;
- money is an integer number of minor units;
- the random reference suffix and the store's clock `NOW()` are passed in;
- whether a store statement fails is a boolean or a set of failing rooms;
- bcrypt and JWT become a hash function, a verify function and the signed claims;
- `JSON.stringify` and `JSON.parse` are a pair of functions;
- the store's derivation of `final_price` is a function.

Modules follow the source files:

- `results.dfy`, `tables.dfy`, `schema.dfy`: the shared data model;
- `helpers.dfy`: `backend/src/utils/helpers.ts`;
- `availability.dfy`: the `updateRoomAvailability` reconciler and the scheduler's sweep;
- `bookings.dfy`: `POST /api/bookings/create`;
- `admin_bookings.dfy`, `admin_rooms.dfy`, `admin_categories.dfy`, `admin_users.dfy`, `admin_settings.dfy`: the admin routes;
- `auth.dfy`: register and login.

## Model

| member | source | states |
|---|---|---|
| Helpers.CalculateNights | backend/src/utils/helpers.ts:16-22 | the night count n is the ceiling of \|Δms\| / 86 400 000: n days cover the gap and n − 1 days do not |
| Helpers.NightsSymmetric | backend/src/utils/helpers.ts:19-21 | the night count is symmetric in its two instants and zero for equal instants |
| Helpers.NightsOfWholeDays | backend/src/utils/helpers.ts:16-22 | for dates a whole number of days apart, the night count is exactly the absolute day difference |
| Helpers.CeilDiv | backend/src/routes/admin/users.ts:46 | `Math.ceil(a / b)`: q·b ≥ a, (q − 1)·b < a when q > 0, and q = 0 exactly when a = 0 |
| Helpers.ToDecimal | backend/src/utils/helpers.ts:27 | `toString()` of a natural number is non-empty decimal digits that read back as the number, a single digit below ten |
| Helpers.PadDecimal | backend/src/utils/helpers.ts:27 | `padStart(w, '0')` of a value below 10^w is exactly w digits whose value is the input |
| Helpers.DateStamp | backend/src/utils/helpers.ts:26 | the ISO date with its dashes removed is the 4-digit year, 2-digit month and 2-digit day in a row |
| Helpers.GenerateBookingId | backend/src/utils/helpers.ts:24-29 | the reference is 14 characters: `TSN`, then digits decoding back to year, month and day, then a 3-digit suffix whose value is the random draw |
| Helpers.BookingIdInjective | backend/src/utils/helpers.ts:24-29 | equal references come from the same date and the same random draw |
| Helpers.FormatResponse | backend/src/utils/helpers.ts:3-14 | `success` is always present; `message` and `error` appear exactly when non-empty; `data` appears exactly when it is not `undefined` |
| Helpers.ParseSingleRow | backend/src/utils/helpers.ts:35-37 | null exactly for an empty row list, else the first row |
| Schema.ParseStatus | backend/src/routes/admin/bookings.ts:104-109 | exactly the five status names are accepted, each mapping to the status it names |
| Schema.StatusRoundTrip | backend/src/routes/admin/bookings.ts:104 | every status survives printing and parsing |
| Tables.FindFirst | backend/src/utils/helpers.ts:35-37 | the first matching row by id, or none exactly when no row matches |
| Availability.ActiveCount | backend/src/routes/bookings.ts:197-205 | the `COUNT(*)` is positive exactly when some pending or confirmed booking of the room checks out today or later |
| Availability.ReconcileRoom | backend/src/routes/bookings.ts:192-215 | only the room's `is_available` changes; it becomes true exactly when every active booking of the room checks out before today; an unknown room changes nothing |
| Availability.TryReconcileRoom | backend/src/routes/admin/bookings.ts:197-220 | a failing reconcile is swallowed and leaves the database as it was; otherwise it is the reconcile |
| Availability.ReconcileIdempotent | backend/src/routes/bookings.ts:192-215 | reconciling twice equals reconciling once |
| Availability.ReconcileIgnoresPreviousFlag | backend/src/routes/bookings.ts:205-211 | the reconciled flag does not depend on the flag it overwrites |
| Availability.SweepAll | backend/src/utils/scheduler.ts:12-30 | after a full sweep every enabled room's flag agrees with the ledger; disabled rooms and all other columns are unchanged |
| Availability.SweepAvailability | backend/src/utils/scheduler.ts:4-41 | one run reconciles the enabled rooms in order until the first failing room; earlier rooms keep their new flags, later ones their old; an unreachable store changes nothing |
| Availability.SweepCompleteIsSweepAll | backend/src/utils/scheduler.ts:14-31 | a run that reaches every enabled room yields the full sweep |
| Availability.SweepIdempotent | backend/src/utils/scheduler.ts:14-30 | a second sweep with the same ledger and date changes nothing |
| Availability.SweepIgnoresFlags | backend/src/utils/scheduler.ts:24-30 | the sweep's result does not depend on the flags the rooms carried before, so manual overrides are overwritten |
| Bookings.SqlConflict | backend/src/routes/bookings.ts:70-80 | for non-empty stays the three OR-ed clauses hold exactly when the half-open ranges overlap |
| Bookings.BackToBackStaysDoNotConflict | backend/src/routes/bookings.ts:74-78 | a stay ending on day D and one starting on D never conflict, in either role |
| Bookings.InactiveBookingsNeverConflict | backend/src/routes/bookings.ts:73 | a cancelled, completed or no-show booking never changes whether a request conflicts |
| Bookings.ConflictMeansOverlap | backend/src/routes/bookings.ts:70-86 | on a well-formed ledger the conflict query finds a row exactly when an active booking of the room overlaps the request |
| Bookings.NewBooking | backend/src/routes/bookings.ts:12-124 | the inserted row holds the guest's name, email and phone as given; unless supplied, check-in 14:00:00, check-out 11:00:00, 1 adult, 0 minors, no minor ages and `pay_at_property`; a falsy UPI app as null; `created_at` from the store's clock; no remarks and no confirm, cancel or update timestamps |
| Bookings.CreateBooking | backend/src/routes/bookings.ts:10-152 | the checks run in order, first failure wins, no write: missing field, past check-in, check-out not after check-in, unknown room, disabled room, conflict with a pending or confirmed booking (400 "Room is not available for the selected dates"); success holds exactly when all pass and the reference is fresh; the new row is `NewBooking` of the request, with pending statuses and the room's final price times the night count; the room is then reconciled, and a reconcile failure is swallowed |
| Bookings.InsertPreservesLedger | backend/src/routes/bookings.ts:70-125 | inserting a well-formed booking that overlaps no active booking of its room keeps the ledger well formed and overlap-free |
| Bookings.CreatePreservesLedger | backend/src/routes/bookings.ts:70-128 | a successful create keeps every booking well formed and no two active bookings of a room overlapping |
| Bookings.AvailabilityFlagIgnored | backend/src/routes/bookings.ts:56-67 | the room's `is_available` flag plays no part in whether a booking succeeds |
| Bookings.CreateMarksRoomUnavailable | backend/src/routes/bookings.ts:128 | after a successful create whose reconcile went through, the room is unavailable |
| Bookings.NewBookingPrice | backend/src/routes/bookings.ts:88-91 | for a stay with check-out after check-in, the new row's total is the room's final price times the number of nights between the days |
| Bookings.PriceFixedAtCreation | backend/src/routes/bookings.ts:89-91 | the total is the room's final price at creation times the day difference |
| AdminBookings.UpdateStatus | backend/src/routes/admin/bookings.ts:93-176 | an empty status, then an unknown status, is refused before the lookup; an unknown id is not found; any status may replace any other; `confirmed_at` and `cancelled_at` are stamped on every update to that status; payment status is written only when non-empty, remarks whenever present; `updated_at` becomes `NOW()`; nothing else changes; the room is reconciled exactly when the status changed |
| AdminBookings.UpdateStatusKeepsLedgerWellFormed | backend/src/routes/admin/bookings.ts:124-150 | a status update never touches the stay or the frozen price |
| AdminBookings.RepeatedStatusUpdate | backend/src/routes/admin/bookings.ts:137-155 | re-confirming restamps `confirmed_at` but leaves the room alone; pending to pending sets neither timestamp |
| AdminBookings.UpdateStatusCanBreakNoOverlap | backend/src/routes/admin/bookings.ts:93-176 | moving a cancelled booking back to pending makes no conflict check, so it can leave two overlapping active bookings of one room |
| AdminBookings.DeleteBooking | backend/src/routes/admin/bookings.ts:179-194 | removes exactly the named booking, or answers not found; no room flag changes |
| AdminBookings.DeletePreservesLedger | backend/src/routes/admin/bookings.ts:179-194 | deletion keeps the ledger well formed and overlap-free |
| AdminBookings.DeleteLeavesFlagUntilSweep | backend/src/routes/admin/bookings.ts:183-189 | deleting a room's only active booking leaves the flag stale until the next sweep sets it |
| AdminRooms.CreateRoom | backend/src/routes/admin/rooms.ts:33-109 | refused when room number, title, category or price is falsy (so price 0 is refused) or the number is taken; otherwise one new row with offer 0, available and enabled unless given, falsy tagline, description and thumbnail stored as null, the final price derived from price and offer, and the supplied facilities |
| AdminRooms.UpdateRoom | backend/src/routes/admin/rooms.ts:112-193 | an unknown room is not found; a number held by another room is refused, the room's own is fine; every supplied column takes the supplied value and every other keeps its own; when any column is written the final price is derived again from the new price and offer, otherwise the row is as it was; facilities are replaced wholesale when supplied; no booking changes |
| AdminRooms.RoomWritesKeepNumbersUnique | backend/src/routes/admin/rooms.ts:57-66 | create and update keep room numbers unique |
| AdminRooms.SetAvailability | backend/src/routes/admin/rooms.ts:196-220 | anything but a JSON boolean is refused; otherwise only that room's flag is set, and an unknown room is not an error |
| AdminRooms.OverrideUndoneBySweep | backend/src/routes/admin/rooms.ts:199-210 | a manual override of an enabled room is erased by the next sweep |
| AdminRooms.DeleteRoom | backend/src/routes/admin/rooms.ts:223-255 | an unknown room is not found; a room with a pending or confirmed booking checking out today or later is refused; otherwise only that row goes |
| AdminRooms.DeleteGuardIsReconcilerPredicate | backend/src/routes/admin/rooms.ts:234-245 | a room can be deleted exactly when the reconciler would mark it available |
| AdminRooms.PriceFrozenAcrossRoomEdit | backend/src/routes/admin/rooms.ts:157-168 | editing a room's price after a booking leaves that booking's price and total unchanged |
| AdminCategories.Lower | backend/src/routes/admin/categories.ts:45 | `toLowerCase` maps each ASCII capital to its small letter, position by position |
| AdminCategories.DashSpacesShape | backend/src/routes/admin/categories.ts:45 | replacing white-space runs by `-` leaves no white space and only dashes or characters of the input; text without white space is unchanged |
| AdminCategories.DashSpacesRun | backend/src/routes/admin/categories.ts:45 | a maximal run of white space becomes exactly one `-`, and the text on either side is dashed on its own |
| AdminCategories.KeepWordCharsShape | backend/src/routes/admin/categories.ts:45 | removing `[^\w-]` keeps every word character and dash, as often as it occurs and in order, and nothing else |
| AdminCategories.Slugify | backend/src/routes/admin/categories.ts:45 | a generated slug consists of `[a-z0-9_-]` only, so it has no white space |
| AdminCategories.SlugOfWord | backend/src/routes/admin/categories.ts:45 | the slug of a name without white space is its lowercased word characters and dashes, in order, each as often as it occurs |
| AdminCategories.SlugOfSpacedName | backend/src/routes/admin/categories.ts:45 | a maximal white-space run of the name becomes one `-` of the slug, between the slugs of the text before and after it |
| AdminCategories.SlugifyIdempotent | backend/src/routes/admin/categories.ts:45 | slugifying a generated slug leaves it unchanged |
| AdminCategories.CategorySlug | backend/src/routes/admin/categories.ts:45 | an explicit slug is used as given, otherwise the name is slugified |
| AdminCategories.CreateCategory | backend/src/routes/admin/categories.ts:34-85 | an empty name is refused, then a taken slug; otherwise one new row with icon `bed` unless given, a falsy description stored as null, the given capacity, order and enabled flag (enabled by default) and an available count equal to the capacity |
| AdminCategories.CreateKeepsSlugsUnique | backend/src/routes/admin/categories.ts:47-72 | creating a category keeps the slugs of all categories distinct |
| AdminCategories.UpdateCategory | backend/src/routes/admin/categories.ts:88-144 | a patch with no fields is refused; otherwise exactly the supplied columns change, the available count is kept, and an unknown id changes nothing |
| AdminCategories.UpdateCanDuplicateSlug | backend/src/routes/admin/categories.ts:100-103 | update checks no slug uniqueness, so it can give two categories the same slug |
| AdminCategories.DeleteCategory | backend/src/routes/admin/categories.ts:147-170 | refused exactly while some room references the category; otherwise only that row goes |
| AdminCategories.DeleteCategoryKeepsRoomsCategorised | backend/src/routes/admin/categories.ts:150-163 | when every room's category exists, it still does after a delete |
| AdminUsers.OffsetIsProduct | backend/src/routes/admin/users.ts:15-16 | the page offset is `(page − 1) × limit` |
| AdminUsers.TotalPages | backend/src/routes/admin/users.ts:46 | `ceil(total / limit)` is 0 exactly for no rows; otherwise (pages − 1)·limit < total ≤ pages·limit |
| AdminUsers.RowLiesOnAPage | backend/src/routes/admin/users.ts:15-46 | every filtered row lies on a page numbered 1 to the page count, between that page's offset and offset + limit |
| AdminUsers.FilterIsExact | backend/src/routes/admin/users.ts:21-24 | keeps exactly the rows whose mobile contains the filter text, in their order and each as often as it occurs (all rows for an empty filter) |
| AdminUsers.PageSlice | backend/src/routes/admin/users.ts:26-29 | `LIMIT`/`OFFSET`: at most `limit` rows, the i-th being row offset + i, and fewer only when the rows run out |
| AdminUsers.ListUsers | backend/src/routes/admin/users.ts:13-55 | over the users rows given in `created_at DESC` order: page 1 and limit 20 by default; the page is the slice of the filtered rows at the offset; the total counts the same filtered rows; the page count is its ceiling quotient, and null for a limit of 0, whose page is empty |
| AdminUsers.GetUser | backend/src/routes/admin/users.ts:58-100 | an unknown id is not found; otherwise the user without the hash, and exactly that user's bookings whose room still exists, each with the room's title and number |
| AdminUsers.UpdateUser | backend/src/routes/admin/users.ts:103-147 | a patch with no fields is refused; otherwise exactly the supplied columns of that user change, and an unknown id changes nothing |
| AdminUsers.UpdateThenGet | backend/src/routes/admin/users.ts:58-147 | reading a user back after an update gives the patched row, the row the update answered with, and the same bookings |
| AdminUsers.UpdateCanDuplicateEmail | backend/src/routes/admin/users.ts:108-135 | an update may give an account the email another account already holds: no uniqueness check is made |
| AdminUsers.DeleteUser | backend/src/routes/admin/users.ts:150-174 | refused exactly while the user has a pending or confirmed booking, whatever its dates; otherwise only that row goes, the other rows and the next id unchanged |
| AdminUsers.DeleteUserKeepsActiveBookingsOwned | backend/src/routes/admin/users.ts:154-167 | when every pending or confirmed booking has its user, it still does after a delete |
| AdminSettings.ParseNumber | backend/src/routes/admin/settings.ts:20-21 | `Number` of decimal digits is their value |
| AdminSettings.NumberRoundTrip | backend/src/routes/admin/settings.ts:49-52 | every integer survives `String` then `Number` |
| AdminSettings.Encode | backend/src/routes/admin/settings.ts:47-59 | numbers are stored as `number`, booleans as `boolean` with `true` or `false`, null, arrays and objects as `json` with their stringified form, strings as `string` unchanged |
| AdminSettings.Decode | backend/src/routes/admin/settings.ts:17-31 | `number` reads through `Number`, NaN when that fails; `boolean` reads as true exactly for `true` or `1`; `json` falls back to the raw text when parsing fails; `string` and unknown types read as the raw text |
| AdminSettings.EncodeDecodeRoundTrip | backend/src/routes/admin/settings.ts:47-59 | numbers, booleans and strings read back as written, and JSON values do whenever the codec round-trips |
| AdminSettings.PutSettings | backend/src/routes/admin/settings.ts:41-71 | every body key is upserted with its encoding and the acting admin; other keys keep their rows; no key is lost |
| AdminSettings.GetSettings | backend/src/routes/admin/settings.ts:12-39 | one entry per stored key, decoded by its type: numbers through `Number` or NaN, booleans true for `true` or `1`, JSON parsed or else the raw text, other types the raw text |
| AdminSettings.PutThenGet | backend/src/routes/admin/settings.ts:73-92 | after a PUT, the GET gives every written key back as it was sent |
| Auth.Register | backend/src/routes/auth.ts:10-89 | the checks run in order, first failure wins: missing field, confirmation mismatch, password shorter than 6 (6 is accepted), email taken, mobile taken; success inserts one active user holding the hash, not the password, and issues claims with role `user` |
| Auth.RegisterKeepsContactsUnique | backend/src/routes/auth.ts:34-63 | registration keeps emails and mobile numbers unique |
| Auth.RoleFor | backend/src/routes/auth.ts:142-147 | the role is admin exactly when an active admin row has the email |
| Auth.FirstAccount | backend/src/routes/auth.ts:113-118 | the account the login looks up is the lowest id holding the email, and there is none exactly when no account holds it |
| Auth.Login | backend/src/routes/auth.ts:92-166 | missing credentials give 400, an unreachable store 503, an unknown email 401; for the first account with the email, a deactivated one gives 403 before the password is checked, and an active one whose password does not verify the same 401 as an unknown email; success needs that account to be active and its password to verify; the view has no hash |
| Auth.RegisterThenLogin | backend/src/routes/auth.ts:57-139 | a freshly registered account can log in at once with the same credentials, and the session names it |

## Left out

- The MySQL pool, Express routing, the HTTP status codes as numbers, and the response bodies re-read after each write are not modelled. Each route returns the new database and the value it computed.
- Concurrency is left out. The check-then-insert race of booking creation, and every other interleaving, are outside a sequential model.
- Timers and the connection gate of the scheduler (`setInterval`, the start-up test) are left out. `SweepAvailability` models one run.
- Date parsing and time zones: dates are day numbers, and each route's notion of today is a parameter. Booking creation compares with the local day, the reconcilers with the UTC day, and room deletion with the store's `CURDATE()`. `Bookings.CreateMarksRoomUnavailable` assumes the UTC day is at most one day after the local one.
- Floating point is not modelled: money and night counts are integers, and `parseFloat(final_price)` is the integer final price.
- `Bookings.CreateBooking`: the request dates are day numbers, so times of day inside the date strings do not reach the night count. The success condition is stated for a well-formed ledger.
- `Bookings.CreateBooking`: the model assumes `booking_id` is the table's primary key, so a reference that already exists makes the INSERT fail with a server error.
- bcrypt, JWT and the JSON codec are function parameters; the token is modelled by the claims it signs.
- `AdminRooms.CreateRoom`, `AdminRooms.UpdateRoom`: the store derives `final_price` from `price` and `offer_percentage` by a rule that is not in the route code, so it is a parameter. A facility given as a bare string, and the `facility.icon || null` coercion, are taken as already normalised.
- `AdminCategories.Slugify`: `toLowerCase` is modelled on ASCII letters only. The few non-ASCII capitals that lowercase to an ASCII letter (the Kelvin sign, dotted capital I) are not modelled.
- `AdminUsers.ListUsers` requires page ≥ 1 and limit ≥ 0. A smaller page gives a negative `OFFSET` and a negative limit a negative `LIMIT`, both of which the store rejects with a server error; those error paths are not modelled. A limit of 0 is modelled: the page is empty and the page count is null. `Number` on non-numeric query text (NaN) is not modelled.
- `AdminRooms.CreateRoom`: the `room_number = ?` uniqueness check compares exactly, while the store's case-insensitive collation would also count "101A" as taken by "101a"; the model accepts such a number.
- `AdminRooms.UpdateRoom`: the `room_number = ? AND room_id != ?` conflict check compares exactly, not under the store's case-insensitive collation; a number differing from another room's only in case is accepted by the model and refused by the store.
- `AdminCategories.CreateCategory`: the `slug = ?` check compares exactly, not under the store's case-insensitive collation; an explicit slug "Deluxe" next to a stored "deluxe" is accepted by the model and refused by the store with "Category with this slug already exists".
- `AdminUsers.ListUsers`: `rows` is a parameter standing for the users table in `created_at DESC` order; the model does not derive it from the users table, since creation instants are not ordered in the model.
- `AdminSettings.NumberToString` writes all digits; JavaScript's `String` switches to exponent text from 10^21 on, so only the stored text of such a number differs (the GET reads both back as the same number).
- `AdminUsers.Filter`: `LIKE` wildcards inside the filter text and the store's case-insensitive collation are not modelled; the filter is a plain substring match.
- `AdminUsers.GetUser`: the bookings are a map keyed by reference, so their `created_at DESC` order is not modelled.
- `Tables.FindFirst`: `parseSingleRow` over an unordered `SELECT ... WHERE email = ?` is read as the row with the lowest id. The store promises no order; the reading matters only when two accounts share an email. Registration refuses that, but an admin update does not check it (`AdminUsers.UpdateCanDuplicateEmail`), so after such an update the model's login picks the lower id where the store may return either row.
- `Auth.Login` and `Auth.Register` compare emails by exact equality, not under the store's collation. JavaScript's UTF-16 length of a password is modelled as its number of characters.
- `Auth.Register` assumes `is_active` defaults to true for a new user row, and that `created_at` is the store's clock, passed as a parameter.
- `Bookings.Env`: the UTC calendar date of the booking reference and the UTC day handed to the reconcile are independent parameters, while the route reads both from one `new Date()`; the model does not tie them together, since a calendar-to-day-number conversion is not modelled and no proved property depends on their agreement.
- `AdminSettings.ParseNumber` covers integer text with an optional sign; surrounding white space, decimals, exponents, `Infinity` and `-Infinity`, and hexadecimal, `0b` binary and `0o` octal text are not modelled: the model reads all of these as NaN, where `Number` gives a number. `updated_at` of a setting is not modelled.
- `AdminSettings.PutSettings` requires the body's keys to be distinct, as a JSON object's are after parsing.
- Foreign-key cascades on delete, `GET /me` of the auth routes, and the read-only listings and dashboards are not modelled. The frontend and the set-up scripts are not part of this model.

## Behaviour worth knowing

- The scheduler wraps its whole loop in one `try`, so the first room whose statement fails ends the run: the rooms before it keep their new flags, and the rest keep their old ones. The model follows the code here, not a per-room isolation of failures.
- Deleting a booking does not reconcile the room, so the flag can be stale until the next sweep (`AdminBookings.DeleteLeavesFlagUntilSweep`).
- A status update makes no conflict check, so it can break the no-overlap invariant that creation keeps (`AdminBookings.UpdateStatusCanBreakNoOverlap`).
- A category update does not check slug uniqueness (`AdminCategories.UpdateCanDuplicateSlug`).
- The sweep visits only enabled rooms, so a manual override of a disabled room's flag survives it.

=== FILE: admin_bookings.dfy ===
/** The admin booking routes: `PUT /:id/status` and `DELETE /:id`. */
module AdminBookings {
  import opened Results
  import opened Tables
  import opened Helpers
  import opened Schema
  import opened Availability
  import opened Bookings

  /** The body of a status update. `bookingStatus` is the raw text (`""`
      when absent); `paymentStatus` is `None` or `Some("")` when falsy;
      `adminRemarks` is `None` when undefined and `Some(None)` for null. */
  datatype StatusUpdate = StatusUpdate(
    bookingStatus: string,
    paymentStatus: Option<string>,
    adminRemarks: Option<Option<string>>)

  const MsgStatusRequired := "booking_status is required"
  const MsgInvalidStatus := "Invalid booking status"
  const MsgBookingNotFound := "Booking not found"

  /** The row after the UPDATE statement. */
  function Updated(b: Booking, s: BookingStatus, u: StatusUpdate, now: Instant): Booking {
    b.(status := s,
       paymentStatus := if u.paymentStatus.Some? && u.paymentStatus.value != "" then u.paymentStatus.value
                        else b.paymentStatus,
       adminRemarks := if u.adminRemarks.Some? then u.adminRemarks.value else b.adminRemarks,
       confirmedAt := if s == Confirmed then Some(now) else b.confirmedAt,
       cancelledAt := if s == Cancelled then Some(now) else b.cancelledAt,
       updatedAt := Some(now))
  }

  /** The route. The status text is checked before any lookup; an unknown
      id is not found; any of the five statuses may replace any other. The
      timestamps of the target status are set on every update to it, even a
      repeated one; payment status is written only when non-empty, remarks
      whenever present. The room is reconciled only when the status changed,
      and a failing reconcile is swallowed. No conflict check is made. */
  function UpdateStatus(db: Db, id: BookingId, u: StatusUpdate, now: Instant, utcToday: Day,
                        reconcileFails: bool): (r: Result<Db>)
    ensures u.bookingStatus == "" ==> r == Err(BadRequest(MsgStatusRequired))
    ensures u.bookingStatus != "" && ParseStatus(u.bookingStatus).None? ==> r == Err(BadRequest(MsgInvalidStatus))
    ensures ParseStatus(u.bookingStatus).Some? && id !in db.bookings ==> r == Err(NotFound(MsgBookingNotFound))
    ensures r.Ok? <==> ParseStatus(u.bookingStatus).Some? && id in db.bookings
    ensures r.Ok? ==> r.value.bookings.Keys == db.bookings.Keys
    ensures r.Ok? ==>
      var old_ := db.bookings[id];
      var nb := r.value.bookings[id];
      && (forall k :: k in db.bookings && k != id ==> r.value.bookings[k] == db.bookings[k])
      && StatusName(nb.status) == u.bookingStatus
      && (nb.status == Confirmed ==> nb.confirmedAt == Some(now))
      && (nb.status != Confirmed ==> nb.confirmedAt == old_.confirmedAt)
      && (nb.status == Cancelled ==> nb.cancelledAt == Some(now))
      && (nb.status != Cancelled ==> nb.cancelledAt == old_.cancelledAt)
      && (u.paymentStatus.Some? && u.paymentStatus.value != "" ==> nb.paymentStatus == u.paymentStatus.value)
      && (u.paymentStatus.None? || u.paymentStatus.value == "" ==> nb.paymentStatus == old_.paymentStatus)
      && (u.adminRemarks.Some? ==> nb.adminRemarks == u.adminRemarks.value)
      && (u.adminRemarks.None? ==> nb.adminRemarks == old_.adminRemarks)
      && nb.updatedAt == Some(now)
      && nb.(status := old_.status, paymentStatus := old_.paymentStatus, adminRemarks := old_.adminRemarks,
             confirmedAt := old_.confirmedAt, cancelledAt := old_.cancelledAt, updatedAt := old_.updatedAt)
         == old_
    ensures r.Ok? ==> r.value.(rooms := db.rooms, bookings := db.bookings) == db
    ensures r.Ok? && db.bookings[id].status == r.value.bookings[id].status ==> r.value.rooms == db.rooms
    ensures r.Ok? && db.bookings[id].status != r.value.bookings[id].status ==>
      r.value == TryReconcileRoom(db.(bookings := r.value.bookings), db.bookings[id].roomId, utcToday, reconcileFails)
  {
    if u.bookingStatus == "" then Err(BadRequest(MsgStatusRequired))
    else match ParseStatus(u.bookingStatus)
      case None => Err(BadRequest(MsgInvalidStatus))
      case Some(s) =>
        if id !in db.bookings then Err(NotFound(MsgBookingNotFound))
        else
          var current := db.bookings[id];
          var written := db.(bookings := db.bookings[id := Updated(current, s, u, now)]);
          if current.status != s then Ok(TryReconcileRoom(written, current.roomId, utcToday, reconcileFails))
          else Ok(written)
  }

  /** Status updates never touch the frozen price nor the stay. */
  lemma UpdateStatusKeepsLedgerWellFormed(db: Db, id: BookingId, u: StatusUpdate, now: Instant, utcToday: Day,
                                          reconcileFails: bool)
    requires WellFormed(db.bookings)
    requires UpdateStatus(db, id, u, now, utcToday, reconcileFails).Ok?
    ensures WellFormed(UpdateStatus(db, id, u, now, utcToday, reconcileFails).value.bookings)
  {
  }

  /** Re-confirming an already confirmed booking stamps `confirmed_at` again
      but leaves the room alone; pending to pending sets neither timestamp. */
  lemma RepeatedStatusUpdate(db: Db, id: BookingId, u: StatusUpdate, now: Instant, utcToday: Day)
    requires id in db.bookings
    requires ParseStatus(u.bookingStatus) == Some(db.bookings[id].status)
    ensures var r := UpdateStatus(db, id, u, now, utcToday, false);
            && r.Ok? && r.value.rooms == db.rooms
            && (db.bookings[id].status == Confirmed ==> r.value.bookings[id].confirmedAt == Some(now))
            && (db.bookings[id].status == Pending ==>
                  r.value.bookings[id].confirmedAt == db.bookings[id].confirmedAt
                  && r.value.bookings[id].cancelledAt == db.bookings[id].cancelledAt)
  {
  }

  /** A booking for room 1 over days [10, 13). */
  function SampleBooking(s: BookingStatus): Booking {
    Booking(1, 1, "Guest", "g@example.com", "555", 10, "14:00:00", 13, "11:00:00", 1, 0, [],
            2000, 3, 6000, "pay_at_property", None, "pending", s, None, 0, None, None, None)
  }

  /** Two bookings of room 1 over the same days, the second one cancelled. */
  function OverlapDemo(): Db {
    Db(EmptyTable(), map["A" := SampleBooking(Pending), "B" := SampleBooking(Cancelled)],
       EmptyTable(), EmptyTable(), EmptyTable(), map[])
  }

  /** Moving a cancelled booking back to pending performs no conflict check,
      so it can leave two overlapping active bookings for one room: status
      updates do not preserve the no-overlap invariant. */
  lemma UpdateStatusCanBreakNoOverlap()
    ensures NoOverlap(OverlapDemo().bookings)
    ensures var r := UpdateStatus(OverlapDemo(), "B", StatusUpdate("pending", None, None), 0, 0, false);
            r.Ok? && !NoOverlap(r.value.bookings)
  {
    var db := OverlapDemo();
    assert "A" != "B";
    var m := db.bookings["B" := Updated(db.bookings["B"], Pending, StatusUpdate("pending", None, None), 0)];
    assert UpdateStatus(db, "B", StatusUpdate("pending", None, None), 0, 0, false).value.bookings == m;
    assert m["A"].status == Pending && m["B"].status == Pending && m["A"].roomId == m["B"].roomId;
    assert Overlaps(m["A"].checkIn, m["A"].checkOut, m["B"].checkIn, m["B"].checkOut);
  }

  /** `DELETE /:id`: removes exactly the named booking, or reports it not
      found. The room's availability is not reconciled. */
  function DeleteBooking(db: Db, id: BookingId): (r: Result<Db>)
    ensures r.Ok? <==> id in db.bookings
    ensures r.Err? ==> r.error == NotFound(MsgBookingNotFound)
    ensures r.Ok? ==> r.value.bookings.Keys == db.bookings.Keys - {id}
    ensures r.Ok? ==> forall k :: k in r.value.bookings ==> r.value.bookings[k] == db.bookings[k]
    ensures r.Ok? ==> r.value.(bookings := db.bookings) == db
  {
    if id in db.bookings then Ok(db.(bookings := db.bookings - {id})) else Err(NotFound(MsgBookingNotFound))
  }

  /** Deleting keeps the ledger well formed and overlap-free. */
  lemma DeletePreservesLedger(db: Db, id: BookingId)
    requires WellFormed(db.bookings) && NoOverlap(db.bookings)
    requires DeleteBooking(db, id).Ok?
    ensures WellFormed(DeleteBooking(db, id).value.bookings)
    ensures NoOverlap(DeleteBooking(db, id).value.bookings)
  {
  }

  /** Deleting a room's only active booking leaves its flag false until the
      next sweep, which then sets it true. */
  lemma DeleteLeavesFlagUntilSweep()
    ensures var room := Room("101", "Deluxe", 1, None, None, 2000, 0, 2000, None, false, true, []);
            var db := Db(Table(map[1 := room], 2), map["A" := SampleBooking(Pending)],
                         EmptyTable(), EmptyTable(), EmptyTable(), map[]);
            var d := DeleteBooking(db, "A");
            && AvailabilityConsistent(db, 5)
            && d.Ok? && !AvailabilityConsistent(d.value, 5)
            && SweepAll(d.value, 5).rooms.rows[1].isAvailable
  {
    var room := Room("101", "Deluxe", 1, None, None, 2000, 0, 2000, None, false, true, []);
    var db := Db(Table(map[1 := room], 2), map["A" := SampleBooking(Pending)],
                 EmptyTable(), EmptyTable(), EmptyTable(), map[]);
    assert Blocks(db.bookings["A"], 1, 5);
    var d := DeleteBooking(db, "A").value;
    assert d.bookings == map[];
    assert !HasActiveBookings(d.bookings, 1, 5);
  }
}

=== FILE: admin_categories.dfy ===
/** The admin category routes: slug generation and the create, update and
    delete guards. */
module AdminCategories {
  import opened Results
  import opened Tables
  import opened Schema

  // ---------------------------------------------------------------------
  // Slugs

  /** JavaScript's `\s`: the ASCII white space, no-break space, the Unicode
      space separators, line and paragraph separators, and the BOM. */
  predicate IsSpace(c: char) {
    var n := c as int;
    || n == 0x20 || (0x09 <= n <= 0x0D) || n == 0xA0 || n == 0x1680 || (0x2000 <= n <= 0x200A)
    || n == 0x2028 || n == 0x2029 || n == 0x202F || n == 0x205F || n == 0x3000 || n == 0xFEFF
  }

  predicate IsUpper(c: char) {
    'A' <= c <= 'Z'
  }

  /** JavaScript's `\w` plus `-`: what `/[^\w-]/g` leaves in place. */
  predicate IsWordOrDash(c: char) {
    ('a' <= c <= 'z') || ('A' <= c <= 'Z') || ('0' <= c <= '9') || c == '_' || c == '-'
  }

  /** The characters a generated slug is made of: `[a-z0-9_-]`. */
  predicate IsSlugChar(c: char) {
    ('a' <= c <= 'z') || ('0' <= c <= '9') || c == '_' || c == '-'
  }

  function LowerChar(c: char): char {
    if IsUpper(c) then (c as int - 'A' as int + 'a' as int) as char else c
  }

  /** `toLowerCase` on the ASCII letters. */
  function Lower(s: string): (r: string)
    ensures |r| == |s|
    ensures forall i :: 0 <= i < |s| ==> r[i] == LowerChar(s[i])
  {
    if |s| == 0 then "" else [LowerChar(s[0])] + Lower(s[1..])
  }

  /** `replace(/\s+/g, '-')`, scanning from the left; `inRun` says whether
      the previous character was white space, in which case this one joins
      its run and adds nothing. */
  function Dash(s: string, inRun: bool): string {
    if |s| == 0 then ""
    else if IsSpace(s[0]) then (if inRun then "" else "-") + Dash(s[1..], true)
    else [s[0]] + Dash(s[1..], false)
  }

  /** `replace(/\s+/g, '-')`. What this promises is stated by
      `DashSpacesShape` and `DashSpacesRun`. */
  function DashSpaces(s: string): string {
    Dash(s, false)
  }

  /** Whether the scan ends inside a run of white space. */
  function EndsInRun(a: string, inRun: bool): bool {
    if |a| == 0 then inRun else IsSpace(a[|a| - 1])
  }

  /** The scan of a concatenation is the scan of each part, the second
      starting in the state the first ended in. */
  lemma {:induction false} DashAppend(a: string, b: string, inRun: bool)
    ensures Dash(a + b, inRun) == Dash(a, inRun) + Dash(b, EndsInRun(a, inRun))
    decreases |a|
  {
    if |a| == 0 {
      assert a + b == b;
    } else {
      assert (a + b)[0] == a[0] && (a + b)[1..] == a[1..] + b;
      assert EndsInRun(a[1..], IsSpace(a[0])) == EndsInRun(a, inRun);
      DashAppend(a[1..], b, IsSpace(a[0]));
    }
  }

  /** A whole run of white space is one dash when it opens a run, and
      nothing when it continues one. */
  lemma {:induction false} DashOfRun(w: string, inRun: bool)
    requires forall i :: 0 <= i < |w| ==> IsSpace(w[i])
    ensures Dash(w, inRun) == if inRun || |w| == 0 then "" else "-"
    decreases |w|
  {
    if |w| > 0 {
      DashOfRun(w[1..], true);
    }
  }

  /** `r` contains no white space, every character of it is a dash or
      comes from `s`, and `r` is `s` when `s` has no white space. */
  predicate DashShaped(s: string, r: string) {
    && (forall i :: 0 <= i < |r| ==> !IsSpace(r[i]) && (r[i] == '-' || r[i] in s))
    && ((forall i :: 0 <= i < |s| ==> !IsSpace(s[i])) ==> r == s)
  }

  lemma {:induction false} DashShape(s: string, inRun: bool)
    ensures DashShaped(s, Dash(s, inRun))
    decreases |s|
  {
    if |s| > 0 {
      var t := Dash(s[1..], IsSpace(s[0]));
      var h := if !IsSpace(s[0]) then [s[0]] else if inRun then "" else "-";
      DashShape(s[1..], IsSpace(s[0]));
      assert Dash(s, inRun) == h + t;
      forall j | 0 <= j < |t| ensures !IsSpace(t[j]) && (t[j] == '-' || t[j] in s) {
        assert t[j] == '-' || t[j] in s[1..];
      }
      assert forall i :: 0 <= i < |h| ==> !IsSpace(h[i]) && (h[i] == '-' || h[i] in s);
      assert forall i :: |h| <= i < |h + t| ==> (h + t)[i] == t[i - |h|];
      if forall i :: 0 <= i < |s| ==> !IsSpace(s[i]) {
        assert forall i :: 0 <= i < |s[1..]| ==> !IsSpace(s[1..][i]);
        assert s == [s[0]] + s[1..];
      }
    }
  }

  /** The dashed text contains no white space, every character of it is a
      dash or comes from `s`, and text without white space is unchanged. */
  lemma DashSpacesShape(s: string)
    ensures DashShaped(s, DashSpaces(s))
  {
    DashShape(s, false);
  }

  /** `w` is a whole run of white space between `a` and `b`: non-empty, all
      white space, and neither `a` ends nor `b` starts with white space. */
  predicate MaximalSpaceRun(a: string, w: string, b: string) {
    && (|a| == 0 || !IsSpace(a[|a| - 1]))
    && |w| > 0 && (forall i :: 0 <= i < |w| ==> IsSpace(w[i]))
    && (|b| == 0 || !IsSpace(b[0]))
  }

  /** Each maximal run of white space becomes exactly one dash and the text
      around it is dashed on its own: together with `DashSpacesShape`, which
      leaves text without white space unchanged, this determines
      `DashSpaces` fully. */
  lemma DashSpacesRun(a: string, w: string, b: string)
    requires MaximalSpaceRun(a, w, b)
    ensures DashSpaces(a + w + b) == DashSpaces(a) + "-" + DashSpaces(b)
  {
    DashAppend(a + w, b, false);
    DashAppend(a, w, false);
    DashOfRun(w, false);
    assert EndsInRun(a + w, false) && !EndsInRun(a, false);
    assert Dash(b, true) == Dash(b, false);
  }

  /** `replace(/[^\w-]/g, '')`: the word characters and dashes, in order. */
  function KeepWordChars(s: string): string {
    Select(s, IsWordOrDash)
  }

  /** The filter keeps exactly the word characters and dashes, in order: the
      result is a subsequence of `s` holding each word character or dash as
      often as `s` does and nothing else. */
  lemma KeepWordCharsShape(s: string)
    ensures Subsequence(KeepWordChars(s), s)
    ensures forall c :: multiset(KeepWordChars(s))[c] == if IsWordOrDash(c) then multiset(s)[c] else 0
    ensures forall i :: 0 <= i < |KeepWordChars(s)| ==> IsWordOrDash(KeepWordChars(s)[i]) && KeepWordChars(s)[i] in s
    ensures (forall i :: 0 <= i < |s| ==> IsWordOrDash(s[i])) ==> KeepWordChars(s) == s
  {
    SelectExact(s, IsWordOrDash);
  }

  /** The generated slug of `POST /`: lowercase, white-space runs as dashes,
      then everything outside `[A-Za-z0-9_-]` removed. It is made only of
      `[a-z0-9_-]`, so it contains no white space. */
  function Slugify(name: string): (slug: string)
    ensures forall i :: 0 <= i < |slug| ==> IsSlugChar(slug[i]) && !IsSpace(slug[i])
  {
    var lowered := Lower(name);
    assert forall c :: c in lowered ==> !IsUpper(c);
    var dashed := DashSpaces(lowered);
    DashSpacesShape(lowered);
    var kept := KeepWordChars(dashed);
    KeepWordCharsShape(dashed);
    assert forall i :: 0 <= i < |kept| ==> kept[i] in dashed && !IsUpper(kept[i]);
    kept
  }

  /** Lowercasing works character by character. */
  lemma LowerAppend(a: string, b: string)
    ensures Lower(a + b) == Lower(a) + Lower(b)
  {
    assert forall i :: 0 <= i < |a + b| ==> Lower(a + b)[i] == (Lower(a) + Lower(b))[i];
  }

  /** Lowercasing neither makes nor unmakes white space. */
  lemma LowerSpaces(s: string)
    ensures forall i :: 0 <= i < |s| ==> IsSpace(Lower(s)[i]) == IsSpace(s[i])
  {
    forall i | 0 <= i < |s| ensures IsSpace(Lower(s)[i]) == IsSpace(s[i]) {
      assert Lower(s)[i] == LowerChar(s[i]);
    }
  }

  lemma LowerKeepsRun(a: string, w: string, b: string)
    requires MaximalSpaceRun(a, w, b)
    ensures MaximalSpaceRun(Lower(a), Lower(w), Lower(b))
  {
    LowerSpaces(a);
    LowerSpaces(w);
    LowerSpaces(b);
  }

  /** For a name without white space the slug is its lowercased word
      characters and dashes, in order, each as often as it occurs. */
  lemma SlugOfWord(name: string)
    requires forall i :: 0 <= i < |name| ==> !IsSpace(name[i])
    ensures Subsequence(Slugify(name), Lower(name))
    ensures forall c :: multiset(Slugify(name))[c] == if IsWordOrDash(c) then multiset(Lower(name))[c] else 0
  {
    var l := Lower(name);
    LowerSpaces(name);
    DashSpacesShape(l);
    assert DashSpaces(l) == l;
    KeepWordCharsShape(l);
  }

  /** A maximal white-space run in a name becomes one dash of the slug, and
      the text on either side is slugified on its own. */
  lemma SlugOfSpacedName(a: string, w: string, b: string)
    requires MaximalSpaceRun(a, w, b)
    ensures Slugify(a + w + b) == Slugify(a) + "-" + Slugify(b)
  {
    LowerAppend(a + w, b);
    LowerAppend(a, w);
    LowerKeepsRun(a, w, b);
    var la, lw, lb := Lower(a), Lower(w), Lower(b);
    DashSpacesRun(la, lw, lb);
    SelectAppend(DashSpaces(la) + "-", DashSpaces(lb), IsWordOrDash);
    SelectAppend(DashSpaces(la), "-", IsWordOrDash);
    assert KeepWordChars("-") == "-";
  }

  /** Slugifying a slug changes nothing. */
  lemma SlugifyIdempotent(name: string)
    ensures Slugify(Slugify(name)) == Slugify(name)
  {
    var s := Slugify(name);
    assert Lower(s) == s;
    DashSpacesShape(s);
    KeepWordCharsShape(s);
  }

  // ---------------------------------------------------------------------
  // Routes

  /** The body of `POST /`. Falsy strings are `""`, falsy numbers 0; `None`
      is `undefined`. */
  datatype CategoryInput = CategoryInput(
    name: string,
    slug: string,
    icon: string,
    description: Option<string>,
    totalCapacity: int,
    displayOrder: int,
    isEnabled: Option<bool>)

  const MsgNameRequired := "Name is required"
  const MsgSlugTaken := "Category with this slug already exists"
  const MsgNoFields := "No fields to update"
  const MsgCategoryHasRooms := "Cannot delete category with existing rooms"

  /** The slug a create uses: the explicit one when given, else generated. */
  function CategorySlug(input: CategoryInput): (slug: string)
    ensures input.slug != "" ==> slug == input.slug
    ensures input.slug == "" ==> slug == Slugify(input.name)
  {
    if input.slug != "" then input.slug else Slugify(input.name)
  }

  /** `POST /`: a name is required and the slug must be new; the row gets
      icon `bed`, capacity and order 0, enabled, unless given, and an
      available count equal to its capacity. */
  function CreateCategory(db: Db, input: CategoryInput): (r: Result<Reply<nat>>)
    requires db.Valid()
    ensures input.name == "" ==> r == Err(BadRequest(MsgNameRequired))
    ensures r.Ok? <==> input.name != "" && forall k :: k in db.categories.rows ==> db.categories.rows[k].slug != CategorySlug(input)
    ensures r.Err? && input.name != "" ==> r.error == BadRequest(MsgSlugTaken)
    ensures r.Ok? ==>
      var id := r.value.data;
      && id !in db.categories.rows
      && r.value.db.categories.rows.Keys == db.categories.rows.Keys + {id}
      && (forall k :: k in db.categories.rows ==> r.value.db.categories.rows[k] == db.categories.rows[k])
      && r.value.db.(categories := db.categories) == db
    ensures r.Ok? ==>
      var c := r.value.db.categories.rows[r.value.data];
      && c.name == input.name && c.slug == CategorySlug(input)
      && c.icon == (if input.icon == "" then "bed" else input.icon)
      && c.description == OrNull(input.description)
      && c.totalCapacity == input.totalCapacity && c.availableCount == c.totalCapacity
      && c.displayOrder == input.displayOrder
      && c.isEnabled == input.isEnabled.GetOr(true)
  {
    if input.name == "" then Err(BadRequest(MsgNameRequired))
    else
      var slug := CategorySlug(input);
      if AnyRow(db.categories, (c: Category) => c.slug == slug) then Err(BadRequest(MsgSlugTaken))
      else
        var c := Category(input.name, slug, if input.icon != "" then input.icon else "bed",
                          OrNull(input.description), input.totalCapacity, input.displayOrder,
                          input.isEnabled.GetOr(true), input.totalCapacity);
        var (categories', id) := Insert(db.categories, c);
        Ok(Reply(db.(categories := categories'), id))
  }

  /** The body of `PUT /:id`; `None` is `undefined`. */
  datatype CategoryPatch = CategoryPatch(
    name: Option<string>,
    slug: Option<string>,
    icon: Option<string>,
    description: Option<Option<string>>,
    totalCapacity: Option<int>,
    displayOrder: Option<int>,
    isEnabled: Option<bool>)

  predicate IsEmptyPatch(p: CategoryPatch) {
    p.name.None? && p.slug.None? && p.icon.None? && p.description.None?
    && p.totalCapacity.None? && p.displayOrder.None? && p.isEnabled.None?
  }

  /** `PUT /:id`: a patch with no fields is refused; otherwise exactly the
      supplied columns change (the available count is not recomputed). No
      slug uniqueness check is made, and an unknown id changes nothing and
      answers with no row. */
  function UpdateCategory(db: Db, id: nat, p: CategoryPatch): (r: Result<Reply<Option<Category>>>)
    ensures r.Ok? <==> !IsEmptyPatch(p)
    ensures r.Err? ==> r.error == BadRequest(MsgNoFields)
    ensures r.Ok? ==> r.value.db.(categories := db.categories) == db
    ensures r.Ok? ==> (r.value.data.Some? <==> id in db.categories.rows)
    ensures r.Ok? && id !in db.categories.rows ==> r.value.db == db
    ensures r.Ok? && id in db.categories.rows ==>
      var old_ := db.categories.rows[id];
      var c := r.value.data.value;
      && r.value.db.categories == UpdateRow(db.categories, id, c)
      && c.name == (if p.name.Some? then p.name.value else old_.name)
      && c.slug == (if p.slug.Some? then p.slug.value else old_.slug)
      && c.icon == (if p.icon.Some? then p.icon.value else old_.icon)
      && c.description == (if p.description.Some? then p.description.value else old_.description)
      && c.totalCapacity == (if p.totalCapacity.Some? then p.totalCapacity.value else old_.totalCapacity)
      && c.displayOrder == (if p.displayOrder.Some? then p.displayOrder.value else old_.displayOrder)
      && c.isEnabled == (if p.isEnabled.Some? then p.isEnabled.value else old_.isEnabled)
      && c.availableCount == old_.availableCount
  {
    if IsEmptyPatch(p) then Err(BadRequest(MsgNoFields))
    else if id !in db.categories.rows then Ok(Reply(db, None))
    else
      var o := db.categories.rows[id];
      var c := Category(p.name.GetOr(o.name), p.slug.GetOr(o.slug), p.icon.GetOr(o.icon),
                        p.description.GetOr(o.description), p.totalCapacity.GetOr(o.totalCapacity),
                        p.displayOrder.GetOr(o.displayOrder), p.isEnabled.GetOr(o.isEnabled), o.availableCount);
      Ok(Reply(db.(categories := UpdateRow(db.categories, id, c)), Some(c)))
  }

  /** Two categories whose slugs differ. */
  function SlugDemo(): Db {
    Db(EmptyTable(),
       map[],
       Table(map[1 := Category("Deluxe", "deluxe", "bed", None, 0, 0, true, 0),
                 2 := Category("Suite", "suite", "bed", None, 0, 0, true, 0)], 3),
       EmptyTable(), EmptyTable(), map[])
  }

  /** Update does not check slug uniqueness: it can give a category the slug
      another one already has, which create would refuse. */
  lemma UpdateCanDuplicateSlug()
    ensures var r := UpdateCategory(SlugDemo(), 2, CategoryPatch(None, Some("deluxe"), None, None, None, None, None));
            && r.Ok?
            && r.value.db.categories.rows[1].slug == r.value.db.categories.rows[2].slug
  {
  }

  /** `DELETE /:id`: refused while any room references the category;
      otherwise the row is removed (an unknown id is not an error). */
  function DeleteCategory(db: Db, id: nat): (r: Result<Db>)
    ensures r.Ok? <==> forall k :: k in db.rooms.rows ==> db.rooms.rows[k].categoryId != id
    ensures r.Err? ==> r.error == BadRequest(MsgCategoryHasRooms)
    ensures r.Ok? ==> r.value == db.(categories := r.value.categories)
    ensures r.Ok? ==> r.value.categories.rows.Keys == db.categories.rows.Keys - {id}
    ensures r.Ok? ==> forall k :: k in r.value.categories.rows ==> r.value.categories.rows[k] == db.categories.rows[k]
  {
    if AnyRow(db.rooms, (room: Room) => room.categoryId == id) then Err(BadRequest(MsgCategoryHasRooms))
    else Ok(db.(categories := DeleteRow(db.categories, id)))
  }

  // ---------------------------------------------------------------------
  // Properties of the category routes

  /** No two categories share a slug. */
  predicate UniqueSlugs(categories: Table<Category>) {
    forall i, j :: i in categories.rows && j in categories.rows && i != j ==>
      categories.rows[i].slug != categories.rows[j].slug
  }

  /** Creating a category keeps slugs unique (updating does not, see
      `UpdateCanDuplicateSlug`). */
  lemma CreateKeepsSlugsUnique(db: Db, input: CategoryInput)
    requires db.Valid() && UniqueSlugs(db.categories)
    ensures CreateCategory(db, input).Ok? ==> UniqueSlugs(CreateCategory(db, input).value.db.categories)
  {
    var r := CreateCategory(db, input);
    if r.Ok? {
      var rows, id := r.value.db.categories.rows, r.value.data;
      forall i, j | i in rows && j in rows && i != j ensures rows[i].slug != rows[j].slug {
        if i == id {
          assert j in db.categories.rows;
        } else if j == id {
          assert i in db.categories.rows;
        }
      }
    }
  }

  /** Every room's category exists. */
  predicate RoomsHaveCategories(db: Db) {
    forall k :: k in db.rooms.rows ==> db.rooms.rows[k].categoryId in db.categories.rows
  }

  /** Deleting a category never leaves a room without its category. */
  lemma DeleteCategoryKeepsRoomsCategorised(db: Db, id: nat)
    requires RoomsHaveCategories(db)
    ensures DeleteCategory(db, id).Ok? ==> RoomsHaveCategories(DeleteCategory(db, id).value)
  {
  }
}

=== FILE: admin_rooms.dfy ===
/** The admin room routes: create, update, manual availability and delete. */
module AdminRooms {
  import opened Results
  import opened Tables
  import opened Helpers
  import opened Schema
  import opened Availability
  import opened Bookings

  /** The store's derivation of `final_price` from `price` and
      `offer_percentage`; it is not part of the route code. */
  type FinalPriceRule = (Money, int) -> Money

  /** The body of `POST /`. Falsy strings are `""`, a falsy category or
      price is 0; `None` is `undefined`, for which defaults apply. */
  datatype RoomInput = RoomInput(
    roomNumber: string,
    title: string,
    categoryId: nat,
    shortTagline: Option<string>,
    longDescription: Option<string>,
    price: Money,
    offerPercentage: Option<int>,
    thumbnail: Option<string>,
    isAvailable: Option<bool>,
    isEnabled: Option<bool>,
    facilities: Option<seq<Facility>>)

  const MsgRoomFields := "Missing required fields: room_number, title, category_id, price"
  const MsgRoomNumberTaken := "Room number already exists"
  const MsgRoomNotFound := "Room not found"
  const MsgNotBoolean := "is_available must be a boolean"
  const MsgRoomHasBookings := "Cannot delete room with active bookings"

  /** No two rooms share a room number. */
  predicate UniqueRoomNumbers(rooms: Table<Room>) {
    forall i, j :: i in rooms.rows && j in rooms.rows && i != j ==> rooms.rows[i].roomNumber != rooms.rows[j].roomNumber
  }

  predicate NumberHeldByOther(rooms: Table<Room>, number: string, self: nat) {
    exists k :: k in rooms.rows && k != self && rooms.rows[k].roomNumber == number
  }

  /** `POST /`: all of room number, title, category and price must be truthy
      (so a price of 0 is refused), the room number must be new; the row is
      inserted with offer 0, available and enabled unless given, and the
      supplied facilities. */
  function CreateRoom(db: Db, input: RoomInput, finalPriceOf: FinalPriceRule): (r: Result<Reply<nat>>)
    requires db.Valid()
    ensures input.roomNumber == "" || input.title == "" || input.categoryId == 0 || input.price == 0
            ==> r == Err(BadRequest(MsgRoomFields))
    ensures r.Err? && input.roomNumber != "" && input.title != "" && input.categoryId != 0 && input.price != 0
            ==> r == Err(BadRequest(MsgRoomNumberTaken))
    ensures r.Ok? <==>
      && input.roomNumber != "" && input.title != "" && input.categoryId != 0 && input.price != 0
      && forall k :: k in db.rooms.rows ==> db.rooms.rows[k].roomNumber != input.roomNumber
    ensures r.Ok? ==>
      var id := r.value.data;
      && id !in db.rooms.rows
      && r.value.db.rooms.rows.Keys == db.rooms.rows.Keys + {id}
      && (forall k :: k in db.rooms.rows ==> r.value.db.rooms.rows[k] == db.rooms.rows[k])
      && r.value.db.(rooms := db.rooms) == db
      && r.value.db.rooms.Valid()
    ensures r.Ok? ==>
      var room := r.value.db.rooms.rows[r.value.data];
      && room.roomNumber == input.roomNumber && room.title == input.title
      && room.categoryId == input.categoryId && room.price == input.price
      && room.offerPercentage == input.offerPercentage.GetOr(0)
      && room.finalPrice == finalPriceOf(input.price, room.offerPercentage)
      && room.isAvailable == input.isAvailable.GetOr(true)
      && room.isEnabled == input.isEnabled.GetOr(true)
      && room.shortTagline == OrNull(input.shortTagline)
      && room.longDescription == OrNull(input.longDescription)
      && room.thumbnail == OrNull(input.thumbnail)
      && room.facilities == input.facilities.GetOr([])
  {
    if input.roomNumber == "" || input.title == "" || input.categoryId == 0 || input.price == 0 then
      Err(BadRequest(MsgRoomFields))
    else if AnyRow(db.rooms, (room: Room) => room.roomNumber == input.roomNumber) then
      Err(BadRequest(MsgRoomNumberTaken))
    else
      var offer := input.offerPercentage.GetOr(0);
      var room := Room(input.roomNumber, input.title, input.categoryId,
                       OrNull(input.shortTagline), OrNull(input.longDescription),
                       input.price, offer, finalPriceOf(input.price, offer), OrNull(input.thumbnail),
                       input.isAvailable.GetOr(true), input.isEnabled.GetOr(true),
                       input.facilities.GetOr([]));
      var (rooms', id) := Insert(db.rooms, room);
      Ok(Reply(db.(rooms := rooms'), id))
  }

  /** The body of `PUT /:id`: `None` is `undefined` (column untouched); the
      nullable text columns take `Some(None)` for null. */
  datatype RoomPatch = RoomPatch(
    roomNumber: Option<string>,
    title: Option<string>,
    categoryId: Option<nat>,
    shortTagline: Option<Option<string>>,
    longDescription: Option<Option<string>>,
    price: Option<Money>,
    offerPercentage: Option<int>,
    thumbnail: Option<Option<string>>,
    isAvailable: Option<bool>,
    isEnabled: Option<bool>,
    facilities: Option<seq<Facility>>)

  /** The patch names at least one column of `rooms` (facilities live in
      their own table). */
  predicate HasColumnUpdates(p: RoomPatch) {
    p.roomNumber.Some? || p.title.Some? || p.categoryId.Some? || p.shortTagline.Some?
    || p.longDescription.Some? || p.price.Some? || p.offerPercentage.Some? || p.thumbnail.Some?
    || p.isAvailable.Some? || p.isEnabled.Some?
  }

  function ApplyColumns(r: Room, p: RoomPatch, finalPriceOf: FinalPriceRule): Room {
    var price := p.price.GetOr(r.price);
    var offer := p.offerPercentage.GetOr(r.offerPercentage);
    Room(p.roomNumber.GetOr(r.roomNumber), p.title.GetOr(r.title), p.categoryId.GetOr(r.categoryId),
         p.shortTagline.GetOr(r.shortTagline), p.longDescription.GetOr(r.longDescription),
         price, offer, finalPriceOf(price, offer), p.thumbnail.GetOr(r.thumbnail),
         p.isAvailable.GetOr(r.isAvailable), p.isEnabled.GetOr(r.isEnabled), r.facilities)
  }

  /** `PUT /:id`: a missing room is not found; a room number held by another
      room is refused (the room's own number is fine); otherwise exactly the
      supplied columns change and the facilities are replaced wholesale when
      a list is supplied. No booking is touched, so prices already frozen on
      bookings stay as they were. */
  function UpdateRoom(db: Db, id: nat, p: RoomPatch, finalPriceOf: FinalPriceRule): (r: Result<Reply<Room>>)
    ensures id !in db.rooms.rows ==> r == Err(NotFound(MsgRoomNotFound))
    ensures r.Ok? <==> id in db.rooms.rows && (p.roomNumber.Some? ==> !NumberHeldByOther(db.rooms, p.roomNumber.value, id))
    ensures r.Err? && id in db.rooms.rows ==> r.error == BadRequest(MsgRoomNumberTaken)
    ensures r.Ok? ==>
      var old_ := db.rooms.rows[id];
      var room := r.value.data;
      && r.value.db == db.(rooms := UpdateRow(db.rooms, id, room))
      && room.roomNumber == (if p.roomNumber.Some? then p.roomNumber.value else old_.roomNumber)
      && room.title == (if p.title.Some? then p.title.value else old_.title)
      && room.categoryId == (if p.categoryId.Some? then p.categoryId.value else old_.categoryId)
      && room.shortTagline == (if p.shortTagline.Some? then p.shortTagline.value else old_.shortTagline)
      && room.longDescription == (if p.longDescription.Some? then p.longDescription.value else old_.longDescription)
      && room.thumbnail == (if p.thumbnail.Some? then p.thumbnail.value else old_.thumbnail)
      && room.price == (if p.price.Some? then p.price.value else old_.price)
      && room.offerPercentage == (if p.offerPercentage.Some? then p.offerPercentage.value else old_.offerPercentage)
      && room.isAvailable == (if p.isAvailable.Some? then p.isAvailable.value else old_.isAvailable)
      && room.isEnabled == (if p.isEnabled.Some? then p.isEnabled.value else old_.isEnabled)
      && room.facilities == (if p.facilities.Some? then p.facilities.value else old_.facilities)
      && (HasColumnUpdates(p) ==> room.finalPrice == finalPriceOf(room.price, room.offerPercentage))
      && (!HasColumnUpdates(p) ==> room == old_.(facilities := room.facilities))
    ensures r.Ok? ==> r.value.db.bookings == db.bookings
  {
    if id !in db.rooms.rows then Err(NotFound(MsgRoomNotFound))
    else if p.roomNumber.Some? && AnyRow(db.rooms.(rows := db.rooms.rows - {id}),
                                         (room: Room) => room.roomNumber == p.roomNumber.value) then
      Err(BadRequest(MsgRoomNumberTaken))
    else
      assert forall k :: k in db.rooms.rows && k != id ==> k in (db.rooms.rows - {id});
      var current := db.rooms.rows[id];
      var columns := if HasColumnUpdates(p) then ApplyColumns(current, p, finalPriceOf) else current;
      var room := columns.(facilities := p.facilities.GetOr(current.facilities));
      Ok(Reply(db.(rooms := UpdateRow(db.rooms, id, room)), room))
  }

  /** Room creation and update keep room numbers unique. */
  lemma RoomWritesKeepNumbersUnique(db: Db, input: RoomInput, id: nat, p: RoomPatch, finalPriceOf: FinalPriceRule)
    requires db.Valid() && UniqueRoomNumbers(db.rooms)
    ensures CreateRoom(db, input, finalPriceOf).Ok? ==>
      UniqueRoomNumbers(CreateRoom(db, input, finalPriceOf).value.db.rooms)
    ensures UpdateRoom(db, id, p, finalPriceOf).Ok? ==>
      UniqueRoomNumbers(UpdateRoom(db, id, p, finalPriceOf).value.db.rooms)
  {
    var u := UpdateRoom(db, id, p, finalPriceOf);
    if u.Ok? {
      var rows := u.value.db.rooms.rows;
      forall i, j | i in rows && j in rows && i != j ensures rows[i].roomNumber != rows[j].roomNumber {
        if i == id && p.roomNumber.Some? {
          assert j in db.rooms.rows && j != id;
        } else if j == id && p.roomNumber.Some? {
          assert i in db.rooms.rows && i != id;
        }
      }
    }
  }

  /** `PUT /:id/availability`: anything but a JSON boolean is refused;
      otherwise only the flag of that room is set, and a missing room is not
      an error (the answer carries no room). */
  function SetAvailability(db: Db, id: nat, value: Json): (r: Result<Reply<Option<Room>>>)
    ensures r.Ok? <==> value.JBool?
    ensures r.Err? ==> r.error == BadRequest(MsgNotBoolean)
    ensures r.Ok? ==>
      && r.value.db.(rooms := db.rooms) == db
      && r.value.db.rooms.rows.Keys == db.rooms.rows.Keys && r.value.db.rooms.next == db.rooms.next
      && (forall k :: k in db.rooms.rows && k != id ==> r.value.db.rooms.rows[k] == db.rooms.rows[k])
      && (id in db.rooms.rows ==> r.value.db.rooms.rows[id] == db.rooms.rows[id].(isAvailable := value.b))
      && (r.value.data.Some? <==> id in db.rooms.rows)
      && (r.value.data.Some? ==> r.value.data.value == r.value.db.rooms.rows[id])
  {
    match value
    case JBool(b) =>
      var rooms' := if id in db.rooms.rows then UpdateRow(db.rooms, id, db.rooms.rows[id].(isAvailable := b))
                    else db.rooms;
      Ok(Reply(db.(rooms := rooms'), if id in rooms'.rows then Some(rooms'.rows[id]) else None))
    case _ => Err(BadRequest(MsgNotBoolean))
  }

  /** A manual override of an enabled room lasts only until the next sweep
      (the sweep does not visit disabled rooms, so their override stays). */
  lemma OverrideUndoneBySweep(db: Db, id: nat, b: bool, today: Day)
    requires id in db.rooms.rows ==> db.rooms.rows[id].isEnabled
    ensures SetAvailability(db, id, JBool(b)).Ok?
    ensures SweepAll(SetAvailability(db, id, JBool(b)).value.db, today) == SweepAll(db, today)
  {
    var d := SetAvailability(db, id, JBool(b)).value.db;
    SweepIgnoresFlags(d, db, today);
  }

  /** `DELETE /:id`: a missing room is not found; a room with a pending or
      confirmed booking checking out today or later is refused; otherwise
      the room row goes and nothing else changes. */
  function DeleteRoom(db: Db, id: nat, today: Day): (r: Result<Db>)
    ensures id !in db.rooms.rows ==> r == Err(NotFound(MsgRoomNotFound))
    ensures id in db.rooms.rows && HasActiveBookings(db.bookings, id, today) ==> r == Err(BadRequest(MsgRoomHasBookings))
    ensures r.Ok? <==> id in db.rooms.rows && !HasActiveBookings(db.bookings, id, today)
    ensures r.Ok? ==> r.value == db.(rooms := r.value.rooms)
    ensures r.Ok? ==> r.value.rooms.rows.Keys == db.rooms.rows.Keys - {id}
    ensures r.Ok? ==> forall k :: k in r.value.rooms.rows ==> r.value.rooms.rows[k] == db.rooms.rows[k]
  {
    if id !in db.rooms.rows then Err(NotFound(MsgRoomNotFound))
    else if ActiveCount(db.bookings, id, today) > 0 then Err(BadRequest(MsgRoomHasBookings))
    else Ok(db.(rooms := DeleteRow(db.rooms, id)))
  }

  /** The delete guard is the reconciler's predicate: a room can be deleted
      exactly when the reconciler would mark it available. */
  lemma DeleteGuardIsReconcilerPredicate(db: Db, id: nat, today: Day)
    requires id in db.rooms.rows
    ensures DeleteRoom(db, id, today).Ok? <==> ReconcileRoom(db, id, today).rooms.rows[id].isAvailable
  {
    if !DeleteRoom(db, id, today).Ok? {
      var w :| w in db.bookings && Blocks(db.bookings[w], id, today);
      assert db.bookings[w].roomId == id && IsActive(db.bookings[w].status);
    }
  }

  /** Editing a room after a booking was made leaves that booking's price
      as it was frozen. */
  lemma PriceFrozenAcrossRoomEdit(db: Db, req: BookingRequest, userId: nat, env: Env,
                                  p: RoomPatch, finalPriceOf: FinalPriceRule)
    ensures var c := CreateBooking(db, req, userId, env);
            c.Ok? && UpdateRoom(c.value.db, req.roomId, p, finalPriceOf).Ok? ==>
              var after := UpdateRoom(c.value.db, req.roomId, p, finalPriceOf).value.db;
              && after.bookings[c.value.bookingId].pricePerNight == db.rooms.rows[req.roomId].finalPrice
              && after.bookings[c.value.bookingId].totalAmount == c.value.booking.totalAmount
  {
  }
}

=== FILE: admin_settings.dfy ===
/** The admin settings routes: the typed encoder of `PUT /`, the decoder of
    `GET /`, and upsert semantics. `JSON.stringify` and `JSON.parse` are
    parameters of the model. */
module AdminSettings {
  import opened Results
  import opened Helpers
  import opened Schema

  /** `JSON.stringify` on a request value. */
  type Stringify = Json -> string

  /** `JSON.parse`: `None` where it throws. */
  type Parse = string -> Option<Json>

  // ---------------------------------------------------------------------
  // Number text

  /** `String(n)` for an integer of magnitude below 10^21; from there on
      JavaScript writes exponent text instead of all the digits. */
  function NumberToString(n: int): (s: string)
    ensures |s| >= 1
  {
    if n < 0 then "-" + ToDecimal(-n) else ToDecimal(n)
  }

  /** `Number(text)` on decimal integer text: the empty text is 0, an
      optional sign may precede the digits, anything else is NaN (`None`). */
  function ParseNumber(t: string): (r: Option<int>)
    ensures AllDigits(t) ==> r == Some(DecimalValue(t))
  {
    if |t| == 0 then Some(0)
    else if AllDigits(t) then Some(DecimalValue(t))
    else if |t| > 1 && t[0] == '-' && AllDigits(t[1..]) then Some(0 - DecimalValue(t[1..]) as int)
    else if |t| > 1 && t[0] == '+' && AllDigits(t[1..]) then Some(DecimalValue(t[1..]))
    else None
  }

  /** Every integer survives `String` then `Number`. */
  lemma NumberRoundTrip(n: int)
    ensures ParseNumber(NumberToString(n)) == Some(n)
  {
    if n < 0 {
      var s := NumberToString(n);
      assert s[1..] == ToDecimal(-n);
      assert !AllDigits(s) by { assert !IsDigit(s[0]); }
    }
  }

  // ---------------------------------------------------------------------
  // Encoder and decoder

  /** The text and type the PUT route stores for a value: numbers as
      `number`, booleans as `boolean` with `'true'`/`'false'`, objects (and
      arrays, and null, whose `typeof` is `object`) as `json` with their
      stringified form, anything else as `string` with `String(value)`. */
  function Encode(v: Json, stringify: Stringify): (r: (string, SettingType))
    ensures v.JNum? ==> r == (NumberToString(v.n), TNumber)
    ensures v.JBool? ==> r.1 == TBoolean && (r.0 == "true" <==> v.b) && (r.0 == "false" <==> !v.b)
    ensures v.JStr? ==> r == (v.s, TString)
    ensures (v.JNull? || v.JArray? || v.JObject?) ==> r == (stringify(v), TJson)
  {
    match v
    case JNum(n) => (NumberToString(n), TNumber)
    case JBool(b) => (if b then "true" else "false", TBoolean)
    case JStr(s) => (s, TString)
    case _ => (stringify(v), TJson)
  }

  /** A value as the GET route hands it out. */
  datatype SettingValue = SNumber(n: int) | SNaN | SBool(b: bool) | SText(s: string) | SJson(j: Json)

  /** The GET route's reading of a stored row: numbers through `Number`,
      booleans true exactly for `'true'` or `'1'`, JSON through `JSON.parse`
      falling back to the raw text when that throws, any other type as the
      raw text. */
  function Decode(s: Setting, parse: Parse): (r: SettingValue)
    ensures s.typ == TBoolean ==> r.SBool? && (r.b <==> s.value == "true" || s.value == "1")
    ensures s.typ == TJson && parse(s.value).None? ==> r == SText(s.value)
    ensures s.typ == TJson && parse(s.value).Some? ==> r == SJson(parse(s.value).value)
    ensures s.typ.TString? || s.typ.TOther? ==> r == SText(s.value)
    ensures s.typ == TNumber && ParseNumber(s.value).Some? ==> r == SNumber(ParseNumber(s.value).value)
    ensures s.typ == TNumber && ParseNumber(s.value).None? ==> r == SNaN
    ensures s.typ == TNumber && AllDigits(s.value) ==> r == SNumber(DecimalValue(s.value))
  {
    match s.typ
    case TNumber => (match ParseNumber(s.value) case Some(n) => SNumber(n) case None => SNaN)
    case TBoolean => SBool(s.value == "true" || s.value == "1")
    case TJson => (match parse(s.value) case Some(j) => SJson(j) case None => SText(s.value))
    case _ => SText(s.value)
  }

  /** What a client gets back for a value it stored. */
  function Expected(v: Json): SettingValue {
    match v
    case JNum(n) => SNumber(n)
    case JBool(b) => SBool(b)
    case JStr(s) => SText(s)
    case _ => SJson(v)
  }

  /** The codec pair agrees on `v`: parsing its stringified form gives it back. */
  predicate CodecRoundTrips(v: Json, stringify: Stringify, parse: Parse) {
    parse(stringify(v)) == Some(v)
  }

  function Stored(v: Json, adminId: Option<nat>, stringify: Stringify): Setting {
    var (text, typ) := Encode(v, stringify);
    Setting(text, typ, adminId)
  }

  /** Encoding then decoding returns the value: always for numbers, booleans
      and strings, and for JSON values whenever the codec round-trips. */
  lemma EncodeDecodeRoundTrip(v: Json, adminId: Option<nat>, stringify: Stringify, parse: Parse)
    requires (v.JNull? || v.JArray? || v.JObject?) ==> CodecRoundTrips(v, stringify, parse)
    ensures Decode(Stored(v, adminId, stringify), parse) == Expected(v)
  {
    if v.JNum? {
      NumberRoundTrip(v.n);
    }
  }

  // ---------------------------------------------------------------------
  // Routes

  function BodyKeys(body: seq<(string, Json)>): set<string> {
    set i | 0 <= i < |body| :: body[i].0
  }

  /** `PUT /`: every member of the body object (its keys are distinct) is
      upserted with its encoding and the acting admin; other keys keep
      their rows. */
  method PutSettings(settings: map<string, Setting>, body: seq<(string, Json)>, adminId: Option<nat>,
                     stringify: Stringify) returns (r: map<string, Setting>)
    requires forall i, j :: 0 <= i < j < |body| ==> body[i].0 != body[j].0
    ensures r.Keys == settings.Keys + BodyKeys(body)
    ensures forall i :: 0 <= i < |body| ==> r[body[i].0] == Stored(body[i].1, adminId, stringify)
    ensures forall k :: k in settings && k !in BodyKeys(body) ==> r[k] == settings[k]
  {
    r := settings;
    var n := 0;
    while n < |body|
      invariant n <= |body|
      invariant r.Keys == settings.Keys + BodyKeys(body[..n])
      invariant forall i :: 0 <= i < n ==> r[body[i].0] == Stored(body[i].1, adminId, stringify)
      invariant forall k :: k in settings && k !in BodyKeys(body[..n]) ==> r[k] == settings[k]
    {
      var (key, value) := body[n];
      r := r[key := Stored(value, adminId, stringify)];
      assert BodyKeys(body[..n + 1]) == BodyKeys(body[..n]) + {key} by {
        assert forall i :: 0 <= i < n + 1 ==> body[..n + 1][i] == body[i];
      }
      n := n + 1;
    }
    assert body[..n] == body;
  }

  /** `GET /`: one entry per stored key, each decoded. */
  function GetSettings(settings: map<string, Setting>, parse: Parse): (r: map<string, SettingValue>)
    ensures r.Keys == settings.Keys
    ensures forall k :: k in settings && settings[k].typ == TBoolean ==>
      r[k].SBool? && (r[k].b <==> settings[k].value == "true" || settings[k].value == "1")
    ensures forall k :: k in settings && (settings[k].typ.TString? || settings[k].typ.TOther?) ==>
      r[k] == SText(settings[k].value)
    ensures forall k :: k in settings && settings[k].typ == TNumber ==>
      r[k] == (if ParseNumber(settings[k].value).Some? then SNumber(ParseNumber(settings[k].value).value) else SNaN)
    ensures forall k :: k in settings && settings[k].typ == TJson ==>
      r[k] == (if parse(settings[k].value).Some? then SJson(parse(settings[k].value).value) else SText(settings[k].value))
  {
    map k | k in settings :: Decode(settings[k], parse)
  }

  /** After a PUT (any `after` holding the rows `PutSettings` writes), a GET
      hands every written key back as it was sent (for JSON values, as far as
      the codec round-trips). */
  lemma PutThenGet(body: seq<(string, Json)>, adminId: Option<nat>, stringify: Stringify, parse: Parse,
                   after: map<string, Setting>, i: nat)
    requires i < |body|
    requires forall j :: 0 <= j < |body| ==> body[j].0 in after && after[body[j].0] == Stored(body[j].1, adminId, stringify)
    requires (body[i].1.JNull? || body[i].1.JArray? || body[i].1.JObject?) ==>
      CodecRoundTrips(body[i].1, stringify, parse)
    ensures body[i].0 in GetSettings(after, parse)
    ensures GetSettings(after, parse)[body[i].0] == Expected(body[i].1)
  {
    EncodeDecodeRoundTrip(body[i].1, adminId, stringify, parse);
  }
}

=== FILE: admin_users.dfy ===
/** The admin user routes: the paginated list with its mobile filter, user
    details, update and delete. */
module AdminUsers {
  import opened Results
  import opened Tables
  import opened Helpers
  import opened Schema

  // ---------------------------------------------------------------------
  // Pagination

  const DefaultPage := 1
  const DefaultLimit := 20

  /** The rows skipped before page `page` (counting from 1): `limit` rows
      for every earlier page. */
  function Offset(page: int, limit: nat): (off: nat)
    requires page >= 1
    decreases page
  {
    if page == 1 then 0 else Offset(page - 1, limit) + limit
  }

  /** The offset is the source's `(page - 1) * limit`. */
  lemma {:induction false} OffsetIsProduct(page: int, limit: nat)
    requires page >= 1
    ensures Offset(page, limit) == (page - 1) * limit
    decreases page
  {
    if page > 1 {
      OffsetIsProduct(page - 1, limit);
      assert (page - 1) * limit == (page - 2) * limit + limit;
    }
  }

  /** `Math.ceil(total / limit)`: the number of pages of `limit` rows that
      hold `total` rows, the last one possibly partial. */
  function TotalPages(total: nat, limit: nat): (pages: nat)
    requires limit > 0
    ensures total == 0 <==> pages == 0
    ensures pages > 0 ==> (pages - 1) * limit < total <= pages * limit
  {
    CeilDiv(total, limit)
  }

  /** Every row of a non-empty result lies on exactly one page numbered
      1 to `TotalPages`. */
  lemma {:induction false} RowLiesOnAPage(total: nat, limit: nat, i: nat)
    requires limit > 0 && i < total
    ensures var p := i / limit + 1;
            1 <= p <= TotalPages(total, limit) && Offset(p, limit) <= i < Offset(p, limit) + limit
  {
    var p := i / limit + 1;
    OffsetIsProduct(p, limit);
    var n := TotalPages(total, limit);
    assert (p - 1) * limit <= i < (p - 1) * limit + limit;
    assert i < n * limit;
    MulLessCancel(p - 1, n, limit);
  }

  // ---------------------------------------------------------------------
  // The list

  /** `haystack LIKE '%needle%'`: `needle` occurs as a contiguous part. */
  predicate Contains(haystack: string, needle: string) {
    exists i :: 0 <= i <= |haystack| && OccursAt(haystack, needle, i)
  }

  predicate OccursAt(haystack: string, needle: string, i: nat) {
    i + |needle| <= |haystack| && haystack[i..i + |needle|] == needle
  }

  /** A user row as the list selects it (no password hash). */
  datatype UserRow = UserRow(userId: nat, fullName: string, email: string, mobile: string,
                             createdAt: Instant, isActive: bool)

  /** The filter both the page query and the count query apply: no filter
      for a falsy `mobile`, else a substring match on the mobile number. */
  predicate MatchesFilter(u: UserRow, mobile: string) {
    mobile == "" || Contains(u.mobile, mobile)
  }

  function MatchesFilterOf(mobile: string): UserRow -> bool {
    u => MatchesFilter(u, mobile)
  }

  /** The matching rows, in order. */
  function Filter(rows: seq<UserRow>, mobile: string): seq<UserRow> {
    Select(rows, MatchesFilterOf(mobile))
  }

  /** The filter keeps exactly the matching rows: in their order, each as
      often as it occurs, and no other row. */
  lemma FilterIsExact(rows: seq<UserRow>, mobile: string)
    ensures Subsequence(Filter(rows, mobile), rows)
    ensures forall u :: multiset(Filter(rows, mobile))[u] == if MatchesFilter(u, mobile) then multiset(rows)[u] else 0
    ensures mobile == "" ==> Filter(rows, mobile) == rows
  {
    SelectExact(rows, MatchesFilterOf(mobile));
  }

  /** `LIMIT limit OFFSET off` over the ordered rows. */
  function PageSlice<T>(rows: seq<T>, off: nat, limit: nat): (r: seq<T>)
    ensures |r| <= limit
    ensures forall i :: 0 <= i < |r| ==> off + i < |rows| && r[i] == rows[off + i]
    ensures |r| < limit ==> off + |r| >= |rows|
  {
    if off >= |rows| then []
    else if off + limit < |rows| then rows[off..off + limit]
    else rows[off..]
  }

  datatype PageQuery = PageQuery(mobile: string, page: Option<int>, limit: Option<int>)

  /** The answer of `GET /`. `totalPages` is `None` for the `null` that
      `JSON.stringify` writes for the non-finite `Math.ceil(total / 0)`. */
  datatype UserPage = UserPage(users: seq<UserRow>, currentPage: int, totalPages: Option<nat>, totalUsers: nat)

  /** `GET /`: `rows` is the users table in `created_at DESC` order. The page
      holds the filtered rows from the offset on, at most `limit` of them;
      the total counts the same filtered rows. A limit of 0 gives an empty
      page and a `null` page count. */
  function ListUsers(rows: seq<UserRow>, q: PageQuery): (r: UserPage)
    requires q.page.GetOr(DefaultPage) >= 1 && q.limit.GetOr(DefaultLimit) >= 0
    ensures var limit := q.limit.GetOr(DefaultLimit);
            var off := Offset(q.page.GetOr(DefaultPage), limit);
            var matching := Filter(rows, q.mobile);
            && r.currentPage == q.page.GetOr(DefaultPage)
            && r.totalUsers == |matching|
            && |r.users| <= limit
            && (forall i :: 0 <= i < |r.users| ==> off + i < |matching| && r.users[i] == matching[off + i])
            && (|r.users| < limit ==> off + |r.users| >= |matching|)
            && (r.totalPages.None? <==> limit == 0)
            && (r.totalPages.Some? ==> (r.totalPages.value == 0 <==> |matching| == 0))
            && (r.totalPages.Some? && r.totalPages.value > 0 ==>
                  (r.totalPages.value - 1) * limit < r.totalUsers <= r.totalPages.value * limit)
  {
    var page := q.page.GetOr(DefaultPage);
    var limit := q.limit.GetOr(DefaultLimit);
    var matching := Filter(rows, q.mobile);
    var off := Offset(page, limit);
    UserPage(PageSlice(matching, off, limit), page,
             if limit == 0 then None else Some(TotalPages(|matching|, limit)), |matching|)
  }

  // ---------------------------------------------------------------------
  // Details, update, delete

  const MsgUserNotFound := "User not found"
  const MsgNoFields := "No fields to update"
  const MsgUserHasBookings := "Cannot delete user with active bookings"

  function RowOf(id: nat, u: User): (row: UserRow)
    ensures row.userId == id && row.email == u.email && row.mobile == u.mobile
  {
    UserRow(id, u.fullName, u.email, u.mobile, u.createdAt, u.isActive)
  }

  /** A booking as the details query joins it with its room. */
  datatype UserBooking = UserBooking(booking: Booking, roomTitle: string, roomNumber: string)

  datatype UserDetails = UserDetails(user: UserRow, bookings: map<BookingId, UserBooking>)

  /** The booking's room still exists, so the inner join keeps the booking. */
  predicate JoinsRoom(db: Db, b: BookingId) {
    b in db.bookings && db.bookings[b].roomId in db.rooms.rows
  }

  /** `GET /:id`: not found for an unknown id; else the user without the
      password hash and the bookings made by that user whose room still
      exists (an inner join), each with the room's title and number. */
  function GetUser(db: Db, id: nat): (r: Result<UserDetails>)
    ensures r.Ok? <==> id in db.users.rows
    ensures r.Err? ==> r.error == NotFound(MsgUserNotFound)
    ensures r.Ok? ==> r.value.user == RowOf(id, db.users.rows[id])
    ensures r.Ok? ==> forall b :: b in r.value.bookings <==> JoinsRoom(db, b) && db.bookings[b].userId == id
    ensures r.Ok? ==> forall b :: b in r.value.bookings ==>
      && JoinsRoom(db, b)
      && var room := db.rooms.rows[db.bookings[b].roomId];
         r.value.bookings[b] == UserBooking(db.bookings[b], room.title, room.roomNumber)
  {
    if id !in db.users.rows then Err(NotFound(MsgUserNotFound))
    else Ok(UserDetails(RowOf(id, db.users.rows[id]),
                        map b | b in db.bookings && JoinsRoom(db, b) && db.bookings[b].userId == id ::
                          UserBooking(db.bookings[b], db.rooms.rows[db.bookings[b].roomId].title,
                                      db.rooms.rows[db.bookings[b].roomId].roomNumber)))
  }

  /** The body of `PUT /:id`; `None` is `undefined`. */
  datatype UserPatch = UserPatch(fullName: Option<string>, email: Option<string>, mobile: Option<string>,
                                 isActive: Option<bool>)

  predicate IsEmptyPatch(p: UserPatch) {
    p.fullName.None? && p.email.None? && p.mobile.None? && p.isActive.None?
  }

  /** `PUT /:id`: a patch with no fields is refused; otherwise exactly the
      supplied columns change. An unknown id changes nothing and answers
      with no row. */
  function UpdateUser(db: Db, id: nat, p: UserPatch): (r: Result<Reply<Option<UserRow>>>)
    ensures r.Ok? <==> !IsEmptyPatch(p)
    ensures r.Err? ==> r.error == BadRequest(MsgNoFields)
    ensures r.Ok? ==> r.value.db.(users := db.users) == db
    ensures r.Ok? ==> (r.value.data.Some? <==> id in db.users.rows)
    ensures r.Ok? && id !in db.users.rows ==> r.value.db == db
    ensures r.Ok? ==> r.value.db.users.rows.Keys == db.users.rows.Keys
    ensures r.Ok? && id in db.users.rows ==>
      var old_ := db.users.rows[id];
      var u := r.value.db.users.rows[id];
      && (forall k :: k in db.users.rows && k != id ==> r.value.db.users.rows[k] == db.users.rows[k])
      && u.fullName == (if p.fullName.Some? then p.fullName.value else old_.fullName)
      && u.email == (if p.email.Some? then p.email.value else old_.email)
      && u.mobile == (if p.mobile.Some? then p.mobile.value else old_.mobile)
      && u.isActive == (if p.isActive.Some? then p.isActive.value else old_.isActive)
      && u.passwordHash == old_.passwordHash && u.createdAt == old_.createdAt
      && r.value.data == Some(RowOf(id, u))
  {
    if IsEmptyPatch(p) then Err(BadRequest(MsgNoFields))
    else if id !in db.users.rows then Ok(Reply(db, None))
    else
      var o := db.users.rows[id];
      var u := o.(fullName := p.fullName.GetOr(o.fullName), email := p.email.GetOr(o.email),
                  mobile := p.mobile.GetOr(o.mobile), isActive := p.isActive.GetOr(o.isActive));
      Ok(Reply(db.(users := UpdateRow(db.users, id, u)), Some(RowOf(id, u))))
  }

  /** `DELETE /:id`: refused while the user has any pending or confirmed
      booking, whatever its dates; otherwise the user row is removed (an
      unknown id is not an error). */
  function DeleteUser(db: Db, id: nat): (r: Result<Db>)
    ensures r.Ok? <==> forall b :: b in db.bookings && db.bookings[b].userId == id ==> !IsActive(db.bookings[b].status)
    ensures r.Err? ==> r.error == BadRequest(MsgUserHasBookings)
    ensures r.Ok? ==> r.value == db.(users := r.value.users)
    ensures r.Ok? ==> r.value.users.rows.Keys == db.users.rows.Keys - {id}
    ensures r.Ok? ==> forall k :: k in r.value.users.rows ==> r.value.users.rows[k] == db.users.rows[k]
    ensures r.Ok? ==> r.value.users.next == db.users.next
  {
    if exists b :: b in db.bookings && db.bookings[b].userId == id && IsActive(db.bookings[b].status) then
      Err(BadRequest(MsgUserHasBookings))
    else Ok(db.(users := DeleteRow(db.users, id)))
  }

  // ---------------------------------------------------------------------
  // Properties of the user routes

  /** Every pending or confirmed booking belongs to a stored user. */
  predicate ActiveBookingsHaveUsers(db: Db) {
    forall b :: b in db.bookings && IsActive(db.bookings[b].status) ==> db.bookings[b].userId in db.users.rows
  }

  /** Deleting a user never leaves a pending or confirmed booking without
      its user. */
  lemma DeleteUserKeepsActiveBookingsOwned(db: Db, id: nat)
    requires ActiveBookingsHaveUsers(db)
    ensures DeleteUser(db, id).Ok? ==> ActiveBookingsHaveUsers(DeleteUser(db, id).value)
  {
  }

  /** Reading a user back after an update shows exactly the patched row. */
  lemma UpdateThenGet(db: Db, id: nat, p: UserPatch)
    requires id in db.users.rows && !IsEmptyPatch(p)
    ensures var after := UpdateUser(db, id, p).value.db;
            && GetUser(after, id).Ok?
            && Some(GetUser(after, id).value.user) == UpdateUser(db, id, p).value.data
            && GetUser(after, id).value.user.fullName == p.fullName.GetOr(db.users.rows[id].fullName)
            && GetUser(after, id).value.user.email == p.email.GetOr(db.users.rows[id].email)
            && GetUser(after, id).value.user.mobile == p.mobile.GetOr(db.users.rows[id].mobile)
            && GetUser(after, id).value.user.isActive == p.isActive.GetOr(db.users.rows[id].isActive)
            && GetUser(after, id).value.bookings == GetUser(db, id).value.bookings
  {
  }

  /** Update does not check email uniqueness: it can give one account the
      email another account already holds, which registration would refuse. */
  lemma UpdateCanDuplicateEmail(db: Db, j: nat, k: nat)
    requires j in db.users.rows && k in db.users.rows && j != k
    ensures var r := UpdateUser(db, k, UserPatch(None, Some(db.users.rows[j].email), None, None));
            && r.Ok?
            && r.value.db.users.rows[j].email == r.value.db.users.rows[k].email
  {
  }
}

=== FILE: auth.dfy ===
/** Registration and login. Password hashing, its comparison and token
    signing are parameters: a token is modelled by the claims it signs. */
module Auth {
  import opened Results
  import opened Tables
  import opened Schema

  const MsgAllFields := "All fields are required"
  const MsgPasswordMismatch := "Passwords do not match"
  const MsgPasswordShort := "Password must be at least 6 characters"
  const MsgEmailTaken := "Email already registered"
  const MsgMobileTaken := "Mobile number already registered"
  const MsgCredentialsRequired := "Email and password are required"
  const MsgDbDown := "Database connection failed. Please check if MySQL is running and configured correctly."
  const MsgInvalidCredentials := "Invalid email or password"
  const MsgDeactivated := "Account is deactivated"

  const MinPasswordLength := 6

  datatype Role = UserRole | AdminRole

  /** What a token signs. */
  datatype Claims = Claims(userId: nat, email: string, role: Role)

  /** `bcrypt.hash`: the salt is part of the function. */
  type Hasher = string -> string

  /** `bcrypt.compare(password, hash)`. */
  type Verifier = (string, string) -> bool

  /** The hasher and the verifier belong together: a password matches its
      own hash. */
  ghost predicate Agrees(hash: Hasher, verify: Verifier) {
    forall p :: verify(p, hash(p))
  }

  function EmailIs(email: string): User -> bool {
    (u: User) => u.email == email
  }

  predicate HasEmail(db: Db, email: string) {
    AnyRow(db.users, EmailIs(email))
  }

  predicate HasMobile(db: Db, mobile: string) {
    AnyRow(db.users, (u: User) => u.mobile == mobile)
  }

  /** No two accounts share an email or a mobile number. */
  predicate UniqueContacts(db: Db) {
    forall j, k :: j in db.users.rows && k in db.users.rows && j != k ==>
      db.users.rows[j].email != db.users.rows[k].email && db.users.rows[j].mobile != db.users.rows[k].mobile
  }

  // ---------------------------------------------------------------------
  // Register

  /** The register body; `confirmPassword` is `None` when absent. */
  datatype RegisterRequest = RegisterRequest(fullName: string, email: string, mobile: string, password: string,
                                             confirmPassword: Option<string>)

  /** The account as the register route returns it: no password hash. */
  datatype PublicUser = PublicUser(userId: nat, fullName: string, email: string, mobile: string, createdAt: Instant)

  datatype Registered = Registered(db: Db, claims: Claims, user: PublicUser)

  predicate FieldsPresent(req: RegisterRequest) {
    req.fullName != "" && req.email != "" && req.mobile != "" && req.password != ""
  }

  /** `POST /register`: required fields, matching confirmation, minimum
      length, then unused email, then unused mobile; on success an active
      account holding the hash of the password is inserted, and the
      returned claims carry the user role. */
  function Register(db: Db, req: RegisterRequest, hash: Hasher, now: Instant): (r: Result<Registered>)
    requires db.Valid()
    ensures !FieldsPresent(req) ==> r == Err(BadRequest(MsgAllFields))
    ensures FieldsPresent(req) && req.confirmPassword != Some(req.password) ==>
      r == Err(BadRequest(MsgPasswordMismatch))
    ensures FieldsPresent(req) && req.confirmPassword == Some(req.password) && |req.password| < MinPasswordLength ==>
      r == Err(BadRequest(MsgPasswordShort))
    ensures r == Err(BadRequest(MsgEmailTaken)) <==>
      FieldsPresent(req) && req.confirmPassword == Some(req.password) && |req.password| >= MinPasswordLength &&
      HasEmail(db, req.email)
    ensures r == Err(BadRequest(MsgMobileTaken)) <==>
      FieldsPresent(req) && req.confirmPassword == Some(req.password) && |req.password| >= MinPasswordLength &&
      !HasEmail(db, req.email) && HasMobile(db, req.mobile)
    ensures r.Ok? <==>
      FieldsPresent(req) && req.confirmPassword == Some(req.password) && |req.password| >= MinPasswordLength &&
      !HasEmail(db, req.email) && !HasMobile(db, req.mobile)
    ensures r.Ok? ==>
      var id := r.value.claims.userId;
      && r.value.db.Valid()
      && r.value.db == db.(users := r.value.db.users)
      && id !in db.users.rows
      && r.value.db.users.rows == db.users.rows[id := User(req.fullName, req.email, req.mobile, hash(req.password), true, now)]
      && r.value.claims == Claims(id, req.email, UserRole)
      && r.value.user == PublicUser(id, req.fullName, req.email, req.mobile, now)
  {
    if !FieldsPresent(req) then Err(BadRequest(MsgAllFields))
    else if req.confirmPassword != Some(req.password) then Err(BadRequest(MsgPasswordMismatch))
    else if |req.password| < MinPasswordLength then Err(BadRequest(MsgPasswordShort))
    else if HasEmail(db, req.email) then Err(BadRequest(MsgEmailTaken))
    else if HasMobile(db, req.mobile) then Err(BadRequest(MsgMobileTaken))
    else
      var (users, id) := Insert(db.users, User(req.fullName, req.email, req.mobile, hash(req.password), true, now));
      Ok(Registered(db.(users := users), Claims(id, req.email, UserRole),
                    PublicUser(id, req.fullName, req.email, req.mobile, now)))
  }

  /** Registration keeps emails and mobile numbers unique. */
  lemma RegisterKeepsContactsUnique(db: Db, req: RegisterRequest, hash: Hasher, now: Instant)
    requires db.Valid() && UniqueContacts(db)
    requires Register(db, req, hash, now).Ok?
    ensures UniqueContacts(Register(db, req, hash, now).value.db)
  {
    var r := Register(db, req, hash, now).value;
    var id := r.claims.userId;
    forall j, k | j in r.db.users.rows && k in r.db.users.rows && j != k
      ensures r.db.users.rows[j].email != r.db.users.rows[k].email
      ensures r.db.users.rows[j].mobile != r.db.users.rows[k].mobile
    {
      if j == id {
        assert db.users.rows[k] == r.db.users.rows[k];
        assert !EmailIs(req.email)(db.users.rows[k]);
        assert !((u: User) => u.mobile == req.mobile)(db.users.rows[k]);
      } else if k == id {
        assert db.users.rows[j] == r.db.users.rows[j];
        assert !EmailIs(req.email)(db.users.rows[j]);
        assert !((u: User) => u.mobile == req.mobile)(db.users.rows[j]);
      }
    }
  }

  // ---------------------------------------------------------------------
  // Login

  datatype LoginRequest = LoginRequest(email: string, password: string)

  /** The account as the login route returns it: the selected columns
      without the password hash. */
  datatype LoginUser = LoginUser(userId: nat, fullName: string, email: string, mobile: string, isActive: bool)

  datatype Session = Session(claims: Claims, user: LoginUser, role: Role)

  /** Whether an active admin shares the email. */
  predicate IsAdminEmail(db: Db, email: string) {
    AnyRow(db.admins, (a: Admin) => a.email == email && a.isActive)
  }

  function RoleFor(db: Db, email: string): (role: Role)
    ensures role == AdminRole <==> IsAdminEmail(db, email)
  {
    if IsAdminEmail(db, email) then AdminRole else UserRole
  }

  /** `id` is the lowest id among the accounts that hold the email. */
  predicate FirstWithEmail(db: Db, email: string, id: nat) {
    && id in db.users.rows && db.users.rows[id].email == email
    && forall k :: k in db.users.rows && k < id ==> db.users.rows[k].email != email
  }

  /** The account `parseSingleRow` picks from `SELECT ... WHERE email = ?`. */
  function FirstAccount(db: Db, email: string): (r: Option<nat>)
    requires db.Valid()
    ensures r.Some? ==> FirstWithEmail(db, email, r.value)
    ensures r.None? <==> !HasEmail(db, email)
  {
    FindFirst(db.users, EmailIs(email))
  }

  /** `POST /login`: both credentials are required; an unreachable store
      answers 503; the first account with the email is looked up; an unknown
      email and a wrong password get the same 401; a deactivated account
      gets 403 (before the password is checked); the role is admin exactly
      when an active admin has the same email. */
  function Login(db: Db, req: LoginRequest, verify: Verifier, reachable: bool): (r: Result<Session>)
    requires db.Valid()
    ensures req.email == "" || req.password == "" ==> r == Err(BadRequest(MsgCredentialsRequired))
    ensures req.email != "" && req.password != "" && !reachable ==> r == Err(Unavailable(MsgDbDown))
    ensures req.email != "" && req.password != "" && reachable && !HasEmail(db, req.email) ==>
      r == Err(Unauthorized(MsgInvalidCredentials))
    ensures var f := FirstAccount(db, req.email);
      req.email != "" && req.password != "" && reachable && f.Some? ==>
      && (!db.users.rows[f.value].isActive ==> r == Err(Forbidden(MsgDeactivated)))
      && (db.users.rows[f.value].isActive && !verify(req.password, db.users.rows[f.value].passwordHash) ==>
            r == Err(Unauthorized(MsgInvalidCredentials)))
    ensures r.Err? && r.error.Unauthorized? ==> r.error == Unauthorized(MsgInvalidCredentials)
    ensures var f := FirstAccount(db, req.email);
      r.Ok? <==>
      req.email != "" && req.password != "" && reachable && f.Some? &&
      db.users.rows[f.value].isActive && verify(req.password, db.users.rows[f.value].passwordHash)
    ensures r.Ok? ==>
      var id := r.value.user.userId;
      && id in db.users.rows
      && r.value.user == LoginUser(id, db.users.rows[id].fullName, db.users.rows[id].email,
                                   db.users.rows[id].mobile, db.users.rows[id].isActive)
      && r.value.claims == Claims(id, db.users.rows[id].email, r.value.role)
      && (r.value.role == AdminRole <==> IsAdminEmail(db, req.email))
  {
    if req.email == "" || req.password == "" then Err(BadRequest(MsgCredentialsRequired))
    else if !reachable then Err(Unavailable(MsgDbDown))
    else
      match FirstAccount(db, req.email)
      case None => Err(Unauthorized(MsgInvalidCredentials))
      case Some(id) =>
        var u := db.users.rows[id];
        if !u.isActive then Err(Forbidden(MsgDeactivated))
        else if !verify(req.password, u.passwordHash) then Err(Unauthorized(MsgInvalidCredentials))
        else
          var role := RoleFor(db, req.email);
          Ok(Session(Claims(id, u.email, role), LoginUser(id, u.fullName, u.email, u.mobile, u.isActive), role))
  }

  /** A freshly registered account can log in at once with the same email
      and password, and the session names the new account. */
  lemma RegisterThenLogin(db: Db, req: RegisterRequest, hash: Hasher, verify: Verifier, now: Instant)
    requires db.Valid() && Agrees(hash, verify)
    requires Register(db, req, hash, now).Ok?
    ensures Login(Register(db, req, hash, now).value.db, LoginRequest(req.email, req.password), verify, true).Ok?
    ensures Login(Register(db, req, hash, now).value.db, LoginRequest(req.email, req.password), verify, true)
              .value.user.userId == Register(db, req, hash, now).value.claims.userId
  {
    var reg := Register(db, req, hash, now).value;
    var id := reg.claims.userId;
    var p := EmailIs(req.email);
    forall k | k in reg.db.users.rows && k != id
      ensures !p(reg.db.users.rows[k])
    {
      assert reg.db.users.rows[k] == db.users.rows[k];
    }
    assert p(reg.db.users.rows[id]);
    assert FirstAccount(reg.db, req.email) == Some(id);
  }
}

=== FILE: availability.dfy ===
/** The availability reconciler: `updateRoomAvailability` (written twice, in
    the booking and admin booking routes) and the all-rooms sweep
    `updateRoomAvailabilityFromBookings` of the scheduler. A room's
    `isAvailable` flag is recomputed from the bookings ledger alone. */
module Availability {
  import opened Results
  import opened Tables
  import opened Schema

  /** A booking that keeps room `roomId` occupied from `today` on: pending or
      confirmed, for that room, checking out today or later. */
  predicate Blocks(b: Booking, roomId: nat, today: Day) {
    b.roomId == roomId && IsActive(b.status) && b.checkOut >= today
  }

  predicate HasActiveBookings(bookings: map<BookingId, Booking>, roomId: nat, today: Day) {
    exists id :: id in bookings && Blocks(bookings[id], roomId, today)
  }

  /** The `COUNT(*)` of the reconciler's query. */
  function ActiveCount(bookings: map<BookingId, Booking>, roomId: nat, today: Day): (n: nat)
    ensures n > 0 <==> HasActiveBookings(bookings, roomId, today)
  {
    var ids := set id | id in bookings && Blocks(bookings[id], roomId, today);
    if HasActiveBookings(bookings, roomId, today) then
      var w :| w in bookings && Blocks(bookings[w], roomId, today);
      assert w in ids;
      |ids|
    else
      assert ids == {};
      |ids|
  }

  /** The room as the reconciler leaves it. */
  function Reconciled(r: Room, bookings: map<BookingId, Booking>, roomId: nat, today: Day): Room {
    r.(isAvailable := !HasActiveBookings(bookings, roomId, today))
  }

  /** `updateRoomAvailability(roomId)`: the flag becomes true exactly when
      every pending or confirmed booking of the room checks out before
      today; nothing else in the database changes, and an unknown room id
      matches no row. */
  function ReconcileRoom(db: Db, roomId: nat, today: Day): (d: Db)
    ensures d == db.(rooms := d.rooms)
    ensures d.rooms.next == db.rooms.next && d.rooms.rows.Keys == db.rooms.rows.Keys
    ensures forall k :: k in db.rooms.rows && k != roomId ==> d.rooms.rows[k] == db.rooms.rows[k]
    ensures roomId in db.rooms.rows ==>
      d.rooms.rows[roomId] == db.rooms.rows[roomId].(isAvailable := d.rooms.rows[roomId].isAvailable)
    ensures roomId in db.rooms.rows ==>
      (d.rooms.rows[roomId].isAvailable <==>
        forall id :: id in db.bookings && db.bookings[id].roomId == roomId && IsActive(db.bookings[id].status)
          ==> db.bookings[id].checkOut < today)
  {
    var hasActive := ActiveCount(db.bookings, roomId, today) > 0;
    if roomId in db.rooms.rows then
      db.(rooms := UpdateRow(db.rooms, roomId, db.rooms.rows[roomId].(isAvailable := !hasActive)))
    else db
  }

  /** The reconciler inside its `try`: when the store fails (`fails`) the
      error is logged and swallowed, and the database is left as it was. */
  function TryReconcileRoom(db: Db, roomId: nat, today: Day, fails: bool): (d: Db)
    ensures fails ==> d == db
    ensures !fails ==> d == ReconcileRoom(db, roomId, today)
  {
    if fails then db else ReconcileRoom(db, roomId, today)
  }

  /** The invariant the reconciler restores: every enabled room's flag
      agrees with the ledger. */
  predicate AvailabilityConsistent(db: Db, today: Day) {
    forall k :: k in db.rooms.rows && db.rooms.rows[k].isEnabled ==>
      (db.rooms.rows[k].isAvailable <==> !HasActiveBookings(db.bookings, k, today))
  }

  /** Reconciling twice is the same as reconciling once. */
  lemma ReconcileIdempotent(db: Db, roomId: nat, today: Day)
    ensures ReconcileRoom(ReconcileRoom(db, roomId, today), roomId, today) == ReconcileRoom(db, roomId, today)
  {
  }

  /** The reconciled flag does not depend on the flag it overwrites. */
  lemma ReconcileIgnoresPreviousFlag(db: Db, roomId: nat, today: Day, flag: bool)
    requires roomId in db.rooms.rows
    ensures var db' := db.(rooms := UpdateRow(db.rooms, roomId, db.rooms.rows[roomId].(isAvailable := flag)));
            ReconcileRoom(db', roomId, today) == ReconcileRoom(db, roomId, today)
  {
  }

  // ---------------------------------------------------------------------
  // The scheduler's sweep

  /** The rooms table after every enabled room has been reconciled. */
  function SweepAll(db: Db, today: Day): (d: Db)
    ensures d == db.(rooms := d.rooms)
    ensures d.rooms.next == db.rooms.next && d.rooms.rows.Keys == db.rooms.rows.Keys
    ensures AvailabilityConsistent(d, today)
    ensures forall k :: k in db.rooms.rows ==>
      d.rooms.rows[k] == db.rooms.rows[k].(isAvailable := d.rooms.rows[k].isAvailable)
    ensures forall k :: k in db.rooms.rows && !db.rooms.rows[k].isEnabled ==> d.rooms.rows[k] == db.rooms.rows[k]
  {
    db.(rooms := db.rooms.(rows := map k | k in db.rooms.rows ::
      if db.rooms.rows[k].isEnabled then Reconciled(db.rooms.rows[k], db.bookings, k, today)
      else db.rooms.rows[k]))
  }

  /** The enabled rooms are exactly the ids listed in `enabledRooms` (the
      result set of `SELECT room_id FROM rooms WHERE is_enabled = 1`). */
  predicate ListsEnabledRooms(db: Db, enabledRooms: seq<nat>) {
    && (forall i :: 0 <= i < |enabledRooms| ==>
          enabledRooms[i] in db.rooms.rows && db.rooms.rows[enabledRooms[i]].isEnabled)
    && (forall k :: k in db.rooms.rows && db.rooms.rows[k].isEnabled ==> k in enabledRooms)
  }

  /** One run of `updateRoomAvailabilityFromBookings`. `enabledRooms` is
      the result set of the enabled-rooms query (see `ListsEnabledRooms`);
      `reachable` is the connection test; `failing` are the rooms whose
      statements the store rejects. One `try` wraps the loop, so the first failing room ends the
      run: the rooms before it (`processed` of them) keep their new flags and
      the rest keep their old ones. */
  method SweepAvailability(db: Db, today: Day, enabledRooms: seq<nat>, reachable: bool, failing: set<nat>)
    returns (d: Db, processed: nat)
    ensures processed <= |enabledRooms|
    ensures !reachable ==> processed == 0
    ensures forall i :: 0 <= i < processed ==> enabledRooms[i] !in failing
    ensures reachable && processed < |enabledRooms| ==> enabledRooms[processed] in failing
    ensures SweptPrefix(db, d, today, enabledRooms[..processed])
  {
    d := db;
    processed := 0;
    if !reachable {
      return;
    }
    while processed < |enabledRooms| && enabledRooms[processed] !in failing
      invariant processed <= |enabledRooms|
      invariant forall i :: 0 <= i < processed ==> enabledRooms[i] !in failing
      invariant SweptPrefix(db, d, today, enabledRooms[..processed])
    {
      SweepStep(db, d, today, enabledRooms[..processed], enabledRooms[processed]);
      assert enabledRooms[..processed + 1] == enabledRooms[..processed] + [enabledRooms[processed]];
      d := ReconcileRoom(d, enabledRooms[processed], today);
      processed := processed + 1;
    }
  }

  /** `d` is `db` with exactly the rooms listed in `visited` reconciled. */
  predicate SweptPrefix(db: Db, d: Db, today: Day, visited: seq<nat>) {
    && d == db.(rooms := d.rooms)
    && d.rooms.next == db.rooms.next && d.rooms.rows.Keys == db.rooms.rows.Keys
    && (forall k :: k in db.rooms.rows && k in visited ==>
          d.rooms.rows[k] == Reconciled(db.rooms.rows[k], db.bookings, k, today))
    && (forall k :: k in db.rooms.rows && k !in visited ==> d.rooms.rows[k] == db.rooms.rows[k])
  }

  /** Reconciling one more room extends the swept prefix by that room. */
  lemma SweepStep(db: Db, d: Db, today: Day, visited: seq<nat>, room: nat)
    requires SweptPrefix(db, d, today, visited)
    ensures SweptPrefix(db, ReconcileRoom(d, room, today), today, visited + [room])
  {
    var d' := ReconcileRoom(d, room, today);
    forall k | k in db.rooms.rows && k in visited + [room]
      ensures d'.rooms.rows[k] == Reconciled(db.rooms.rows[k], db.bookings, k, today)
    {
      if k != room {
        assert k in visited;
      }
    }
  }

  /** A run that reaches every room ends with the same table as `SweepAll`. */
  lemma SweepCompleteIsSweepAll(db: Db, today: Day, enabledRooms: seq<nat>, d: Db, processed: nat)
    requires ListsEnabledRooms(db, enabledRooms)
    requires d == db.(rooms := d.rooms)
    requires d.rooms.next == db.rooms.next && d.rooms.rows.Keys == db.rooms.rows.Keys
    requires processed == |enabledRooms|
    requires forall k :: k in db.rooms.rows && k in enabledRooms[..processed] ==>
      d.rooms.rows[k] == Reconciled(db.rooms.rows[k], db.bookings, k, today)
    requires forall k :: k in db.rooms.rows && k !in enabledRooms[..processed] ==>
      d.rooms.rows[k] == db.rooms.rows[k]
    ensures d == SweepAll(db, today)
  {
    assert enabledRooms[..processed] == enabledRooms;
    var s := SweepAll(db, today);
    assert d.rooms.rows == s.rooms.rows;
  }

  /** Sweeping is idempotent: a second run with the same ledger and date
      changes nothing. */
  lemma SweepIdempotent(db: Db, today: Day)
    ensures SweepAll(SweepAll(db, today), today) == SweepAll(db, today)
  {
    var s := SweepAll(db, today);
    var s2 := SweepAll(s, today);
    assert s2.rooms.rows == s.rooms.rows;
  }

  /** The sweep's result depends only on the ledger, the date and the room
      attributes other than the flag: whatever flags the rooms carried before
      (a manual override included) are overwritten. */
  lemma SweepIgnoresFlags(db1: Db, db2: Db, today: Day)
    requires db1.bookings == db2.bookings && db1 == db2.(rooms := db1.rooms)
    requires db1.rooms.next == db2.rooms.next && db1.rooms.rows.Keys == db2.rooms.rows.Keys
    requires forall k :: k in db1.rooms.rows ==>
      db1.rooms.rows[k] == db2.rooms.rows[k].(isAvailable := db1.rooms.rows[k].isAvailable)
    requires forall k :: k in db1.rooms.rows && !db1.rooms.rows[k].isEnabled ==>
      db1.rooms.rows[k] == db2.rooms.rows[k]
    ensures SweepAll(db1, today) == SweepAll(db2, today)
  {
    var s1, s2 := SweepAll(db1, today), SweepAll(db2, today);
    assert s1.rooms.rows == s2.rooms.rows;
  }
}

=== FILE: bookings.dfy ===
/** `POST /api/bookings/create`: the validation cascade, the conflict query,
    pricing, the inserted record and the post-insert reconcile. */
module Bookings {
  import opened Results
  import opened Tables
  import opened Helpers
  import opened Schema
  import opened Availability

  // ---------------------------------------------------------------------
  // The conflict checker

  /** Half-open overlap of `[aIn, aOut)` and `[bIn, bOut)`: the check-out day
      is free for the next guest. */
  predicate Overlaps(aIn: Day, aOut: Day, bIn: Day, bOut: Day) {
    aIn < bOut && bIn < aOut
  }

  /** The three OR-ed clauses of the conflict query for a stored stay
      `[eIn, eOut)` and a requested stay `[rIn, rOut)`. For non-empty stays
      they say exactly that the two half-open ranges overlap. */
  function SqlConflict(eIn: Day, eOut: Day, rIn: Day, rOut: Day): (c: bool)
    ensures eIn < eOut && rIn < rOut ==> (c <==> Overlaps(eIn, eOut, rIn, rOut))
  {
    || (eIn <= rIn && eOut > rIn)
    || (eIn < rOut && eOut >= rOut)
    || (eIn >= rIn && eOut <= rOut)
  }

  /** A stay that ends on day `d` never conflicts with one that starts on `d`. */
  lemma BackToBackStaysDoNotConflict(eIn: Day, d: Day, rOut: Day)
    requires eIn < d < rOut
    ensures !SqlConflict(eIn, d, d, rOut)
    ensures !SqlConflict(d, rOut, eIn, d)
  {
  }

  /** A stored booking the conflict query returns. */
  predicate ConflictsWith(b: Booking, roomId: nat, checkIn: Day, checkOut: Day) {
    b.roomId == roomId && IsActive(b.status) && SqlConflict(b.checkIn, b.checkOut, checkIn, checkOut)
  }

  predicate HasConflict(bookings: map<BookingId, Booking>, roomId: nat, checkIn: Day, checkOut: Day) {
    exists id :: id in bookings && ConflictsWith(bookings[id], roomId, checkIn, checkOut)
  }

  /** Only pending and confirmed bookings can block a request. */
  lemma InactiveBookingsNeverConflict(bookings: map<BookingId, Booking>, id: BookingId, b: Booking,
                                      roomId: nat, checkIn: Day, checkOut: Day)
    requires !IsActive(b.status)
    ensures HasConflict(bookings[id := b], roomId, checkIn, checkOut) ==
            HasConflict(bookings - {id}, roomId, checkIn, checkOut)
  {
    var m, m' := bookings[id := b], bookings - {id};
    if HasConflict(m, roomId, checkIn, checkOut) {
      var w :| w in m && ConflictsWith(m[w], roomId, checkIn, checkOut);
      assert w in m';
    }
    if HasConflict(m', roomId, checkIn, checkOut) {
      var w :| w in m' && ConflictsWith(m'[w], roomId, checkIn, checkOut);
      assert w in m;
    }
  }

  // ---------------------------------------------------------------------
  // Ledger invariants

  /** Every stored stay is non-empty and its price was fixed as
      `pricePerNight * totalNights` with the stay's night count. */
  predicate WellFormedBooking(b: Booking) {
    && b.checkIn < b.checkOut
    && b.totalNights == b.checkOut - b.checkIn
    && b.totalAmount == b.pricePerNight * b.totalNights
  }

  predicate WellFormed(bookings: map<BookingId, Booking>) {
    forall id :: id in bookings ==> WellFormedBooking(bookings[id])
  }

  /** No two distinct active bookings of one room overlap. */
  predicate NoOverlap(bookings: map<BookingId, Booking>) {
    forall i, j :: i in bookings && j in bookings && i != j
      && bookings[i].roomId == bookings[j].roomId
      && IsActive(bookings[i].status) && IsActive(bookings[j].status)
      ==> !Overlaps(bookings[i].checkIn, bookings[i].checkOut, bookings[j].checkIn, bookings[j].checkOut)
  }

  // ---------------------------------------------------------------------
  // The request

  /** The request body. Strings that are absent, null or empty are `""`
      (falsy); `None` is `undefined`, for which the destructuring defaults
      apply. A `roomId` of 0 is falsy. */
  datatype BookingRequest = BookingRequest(
    roomId: nat,
    fullName: string,
    email: string,
    phone: string,
    checkIn: Option<Day>,
    checkOut: Option<Day>,
    checkInTime: Option<string>,
    checkOutTime: Option<string>,
    numAdults: Option<int>,
    numMinors: Option<int>,
    minorAges: Option<seq<int>>,
    paymentMethod: Option<string>,
    upiApp: Option<string>)

  /** The clock, the random source and the store's fault for one request:
      the local day (for the past-date check), the UTC day (for the
      reconcile), the UTC calendar date (for the reference), `NOW()`, the
      random suffix, and whether the post-insert reconcile fails. */
  datatype Env = Env(localToday: Day, utcToday: Day, utcDate: StampDate, now: Instant,
                     suffix: Suffix, reconcileFails: bool)

  predicate MissingFields(req: BookingRequest) {
    req.roomId == 0 || req.fullName == "" || req.email == "" || req.phone == ""
    || req.checkIn.None? || req.checkOut.None?
  }

  /** The request passes the field and date checks. */
  predicate DatesAccepted(req: BookingRequest, env: Env) {
    !MissingFields(req) && env.localToday <= req.checkIn.value < req.checkOut.value
  }

  const MsgMissing := "Missing required fields"
  const MsgPast := "Check-in date cannot be in the past"
  const MsgOrder := "Check-out date must be after check-in date"
  const MsgRoomNotFound := "Room not found"
  const MsgRoomDisabled := "Room is not available"
  const MsgConflict := "Room is not available for the selected dates"

  /** A successful creation: the new database, the reference and the row. */
  datatype Created = Created(db: Db, bookingId: BookingId, booking: Booking)

  /** The row the INSERT writes: the guest's details as given, the
      destructuring defaults for whatever the request leaves undefined, a
      falsy UPI app as null, `created_at` from the store's clock, and no
      remarks or status timestamps yet. */
  function NewBooking(req: BookingRequest, userId: nat, room: Room, now: Instant): (b: Booking)
    requires req.checkIn.Some? && req.checkOut.Some?
    ensures b.guestName == req.fullName && b.guestEmail == req.email && b.guestPhone == req.phone
    ensures b.checkInTime == (if req.checkInTime.Some? then req.checkInTime.value else "14:00:00")
    ensures b.checkOutTime == (if req.checkOutTime.Some? then req.checkOutTime.value else "11:00:00")
    ensures b.numAdults == (if req.numAdults.Some? then req.numAdults.value else 1)
    ensures b.numMinors == (if req.numMinors.Some? then req.numMinors.value else 0)
    ensures b.minorAges == (if req.minorAges.Some? then req.minorAges.value else [])
    ensures b.paymentMethod == (if req.paymentMethod.Some? then req.paymentMethod.value else "pay_at_property")
    ensures b.upiApp == OrNull(req.upiApp)
    ensures b.createdAt == now
    ensures b.adminRemarks.None? && b.confirmedAt.None? && b.cancelledAt.None? && b.updatedAt.None?
  {
    var nights := CalculateNights(req.checkIn.value * MsPerDay, req.checkOut.value * MsPerDay);
    var pricePerNight := room.finalPrice;
    Booking(
      userId, req.roomId, req.fullName, req.email, req.phone,
      req.checkIn.value, req.checkInTime.GetOr("14:00:00"),
      req.checkOut.value, req.checkOutTime.GetOr("11:00:00"),
      req.numAdults.GetOr(1), req.numMinors.GetOr(0), req.minorAges.GetOr([]),
      pricePerNight, nights, pricePerNight * nights,
      req.paymentMethod.GetOr("pay_at_property"), OrNull(req.upiApp),
      "pending", Pending, None, now, None, None, None)
  }

  /** The route. Checks run in order and the first failure wins, with no
      write: missing field, check-in before today, check-out not after
      check-in, unknown room, disabled room, a pending or confirmed booking of
      the room in conflict. Only `is_enabled` is consulted, never
      `is_available`. The booking is inserted with the room's current final
      price; a reference that already exists makes the INSERT fail. The
      reconcile that follows cannot undo the booking. */
  function CreateBooking(db: Db, req: BookingRequest, userId: nat, env: Env): (r: Result<Created>)
    // the cascade, first failure wins
    ensures MissingFields(req) ==> r == Err(BadRequest(MsgMissing))
    ensures !MissingFields(req) && req.checkIn.value < env.localToday ==> r == Err(BadRequest(MsgPast))
    ensures !MissingFields(req) && req.checkIn.value >= env.localToday && req.checkOut.value <= req.checkIn.value
            ==> r == Err(BadRequest(MsgOrder))
    ensures DatesAccepted(req, env) && req.roomId !in db.rooms.rows ==> r == Err(NotFound(MsgRoomNotFound))
    ensures DatesAccepted(req, env) && req.roomId in db.rooms.rows && !db.rooms.rows[req.roomId].isEnabled
            ==> r == Err(BadRequest(MsgRoomDisabled))
    ensures DatesAccepted(req, env) && req.roomId in db.rooms.rows && db.rooms.rows[req.roomId].isEnabled
            && HasConflict(db.bookings, req.roomId, req.checkIn.value, req.checkOut.value)
            ==> r == Err(BadRequest(MsgConflict))
    // success, stated with half-open overlap for a well-formed ledger
    ensures WellFormed(db.bookings) ==>
      (r.Ok? <==>
        && DatesAccepted(req, env)
        && req.roomId in db.rooms.rows && db.rooms.rows[req.roomId].isEnabled
        && (forall id :: id in db.bookings && db.bookings[id].roomId == req.roomId && IsActive(db.bookings[id].status)
              ==> !Overlaps(db.bookings[id].checkIn, db.bookings[id].checkOut, req.checkIn.value, req.checkOut.value))
        && GenerateBookingId(env.utcDate, env.suffix) !in db.bookings)
    // the inserted record
    ensures r.Ok? ==>
      var b := r.value.booking;
      && r.value.bookingId == GenerateBookingId(env.utcDate, env.suffix)
      && r.value.bookingId !in db.bookings
      && r.value.db.bookings == db.bookings[r.value.bookingId := b]
      && b.roomId == req.roomId && b.userId == userId
      && b.status == Pending && b.paymentStatus == "pending"
      && b.checkIn == req.checkIn.value && b.checkOut == req.checkOut.value
      && b.totalNights == req.checkOut.value - req.checkIn.value
      && b.pricePerNight == db.rooms.rows[req.roomId].finalPrice
      && b.totalAmount == b.pricePerNight * b.totalNights
      && WellFormedBooking(b)
    // the guest, the destructuring defaults and the columns the INSERT leaves to the store
    ensures r.Ok? ==> r.value.booking == NewBooking(req, userId, db.rooms.rows[req.roomId], env.now)
    // only the booked room's flag may change, and only through the reconciler
    ensures r.Ok? ==> r.value.db.(rooms := db.rooms, bookings := db.bookings) == db
    ensures r.Ok? ==> r.value.db == TryReconcileRoom(db.(bookings := r.value.db.bookings), req.roomId,
                                                      env.utcToday, env.reconcileFails)
  {
    if MissingFields(req) then Err(BadRequest(MsgMissing))
    else if req.checkIn.value < env.localToday then Err(BadRequest(MsgPast))
    else if req.checkOut.value <= req.checkIn.value then Err(BadRequest(MsgOrder))
    else if req.roomId !in db.rooms.rows then Err(NotFound(MsgRoomNotFound))
    else if !db.rooms.rows[req.roomId].isEnabled then Err(BadRequest(MsgRoomDisabled))
    else if HasConflict(db.bookings, req.roomId, req.checkIn.value, req.checkOut.value) then
      Err(BadRequest(MsgConflict))
    else
      var id := GenerateBookingId(env.utcDate, env.suffix);
      if id in db.bookings then Err(ServerError("Duplicate entry '" + id + "' for key 'PRIMARY'"))
      else
        var b := NewBooking(req, userId, db.rooms.rows[req.roomId], env.now);
        NightsOfWholeDays(req.checkIn.value, req.checkOut.value);
        ConflictMeansOverlap(db.bookings, req.roomId, req.checkIn.value, req.checkOut.value);
        var inserted := db.(bookings := db.bookings[id := b]);
        Ok(Created(TryReconcileRoom(inserted, req.roomId, env.utcToday, env.reconcileFails), id, b))
  }

  /** On a well-formed ledger the conflict query finds a booking exactly when
      some active booking of the room overlaps the requested stay. */
  lemma ConflictMeansOverlap(bookings: map<BookingId, Booking>, roomId: nat, checkIn: Day, checkOut: Day)
    requires checkIn < checkOut
    ensures WellFormed(bookings) ==>
      (HasConflict(bookings, roomId, checkIn, checkOut) <==>
        exists id :: id in bookings && bookings[id].roomId == roomId && IsActive(bookings[id].status)
          && Overlaps(bookings[id].checkIn, bookings[id].checkOut, checkIn, checkOut))
  {
  }

  // ---------------------------------------------------------------------
  // Properties of creation

  /** Adding a well-formed booking that overlaps no active booking of its
      room keeps the ledger well formed and overlap-free. */
  lemma InsertPreservesLedger(bookings: map<BookingId, Booking>, id: BookingId, b: Booking)
    requires WellFormed(bookings) && NoOverlap(bookings)
    requires id !in bookings && WellFormedBooking(b)
    requires forall k :: k in bookings && bookings[k].roomId == b.roomId && IsActive(bookings[k].status) ==>
      !Overlaps(bookings[k].checkIn, bookings[k].checkOut, b.checkIn, b.checkOut)
    ensures WellFormed(bookings[id := b]) && NoOverlap(bookings[id := b])
  {
    var m := bookings[id := b];
    forall i, j | i in m && j in m && i != j && m[i].roomId == m[j].roomId
      && IsActive(m[i].status) && IsActive(m[j].status)
      ensures !Overlaps(m[i].checkIn, m[i].checkOut, m[j].checkIn, m[j].checkOut)
    {
      if i == id {
        assert j in bookings;
      } else if j == id {
        assert i in bookings;
      }
    }
  }

  /** Sequential creation keeps the ledger well formed and free of
      overlapping active bookings. */
  lemma CreatePreservesLedger(db: Db, req: BookingRequest, userId: nat, env: Env)
    requires WellFormed(db.bookings) && NoOverlap(db.bookings)
    requires CreateBooking(db, req, userId, env).Ok?
    ensures WellFormed(CreateBooking(db, req, userId, env).value.db.bookings)
    ensures NoOverlap(CreateBooking(db, req, userId, env).value.db.bookings)
  {
    var c := CreateBooking(db, req, userId, env).value;
    InsertPreservesLedger(db.bookings, c.bookingId, c.booking);
  }

  /** A room whose `is_available` flag is false can still be booked: the
      flag plays no part in the decision. */
  lemma AvailabilityFlagIgnored(db: Db, req: BookingRequest, userId: nat, env: Env, flag: bool)
    requires req.roomId in db.rooms.rows
    ensures var db' := db.(rooms := UpdateRow(db.rooms, req.roomId, db.rooms.rows[req.roomId].(isAvailable := flag)));
            CreateBooking(db', req, userId, env).Ok? == CreateBooking(db, req, userId, env).Ok?
  {
  }

  /** After a successful creation whose reconcile went through, the room is
      unavailable: the new booking is pending and checks out after the local
      day, which is at most one day behind the UTC day. */
  lemma CreateMarksRoomUnavailable(db: Db, req: BookingRequest, userId: nat, env: Env)
    requires !env.reconcileFails && env.utcToday <= env.localToday + 1
    ensures CreateBooking(db, req, userId, env).Ok? ==>
      && req.roomId in CreateBooking(db, req, userId, env).value.db.rooms.rows
      && !CreateBooking(db, req, userId, env).value.db.rooms.rows[req.roomId].isAvailable
  {
    if CreateBooking(db, req, userId, env).Ok? {
      var c := CreateBooking(db, req, userId, env).value;
      assert Blocks(c.db.bookings[c.bookingId], req.roomId, env.utcToday);
    }
  }

  /** The price frozen on a booking is the room's final price at creation;
      later edits of the room are not read again. */
  lemma PriceFixedAtCreation(db: Db, req: BookingRequest, userId: nat, env: Env)
    ensures var r := CreateBooking(db, req, userId, env);
            r.Ok? ==> r.value.booking.totalAmount == db.rooms.rows[req.roomId].finalPrice * (req.checkOut.value - req.checkIn.value)
  {
    var r := CreateBooking(db, req, userId, env);
    if r.Ok? {
      NewBookingPrice(req, userId, db.rooms.rows[req.roomId], env.now);
    }
  }

  /** The new row's total is the room's final price times the nights. */
  lemma NewBookingPrice(req: BookingRequest, userId: nat, room: Room, now: Instant)
    requires req.checkIn.Some? && req.checkOut.Some? && req.checkIn.value < req.checkOut.value
    ensures NewBooking(req, userId, room, now).totalAmount == room.finalPrice * (req.checkOut.value - req.checkIn.value)
  {
    NightsOfWholeDays(req.checkIn.value, req.checkOut.value);
  }
}

=== FILE: helpers.dfy ===
/** The pure helpers of `backend/src/utils/helpers.ts`: night counting, the
    booking reference generator, the response envelope and single-row
    extraction. */
module Helpers {
  import opened Results

  // ---------------------------------------------------------------------
  // calculateNights

  /** Milliseconds in a day, `1000 * 60 * 60 * 24`. */
  const MsPerDay: nat := 86_400_000

  function Abs(x: int): nat {
    if x < 0 then -x else x
  }

  /** `Math.ceil(a / b)` for a non-negative numerator and positive divisor. */
  function CeilDiv(a: nat, b: nat): (q: nat)
    requires b > 0
    ensures q * b >= a
    ensures q > 0 ==> (q - 1) * b < a
    ensures a == 0 <==> q == 0
  {
    var q := (a + b - 1) / b;
    LemmaCeilDiv(a, b, q);
    q
  }

  lemma LemmaCeilDiv(a: nat, b: nat, q: nat)
    requires b > 0 && q == (a + b - 1) / b
    ensures q * b >= a
    ensures q > 0 ==> (q - 1) * b < a
    ensures a == 0 <==> q == 0
  {
    var r := (a + b - 1) % b;
    assert q * b + r == a + b - 1;
    assert 0 <= r < b;
    if q > 0 {
      assert (q - 1) * b == q * b - b;
    }
    if a == 0 {
      assert (b - 1) / b == 0;
    }
  }

  /** `calculateNights` on two instants given in epoch milliseconds: the
      number of whole days, rounded up, between them in either order. */
  function CalculateNights(checkInMs: int, checkOutMs: int): (n: nat)
    ensures n * MsPerDay >= Abs(checkOutMs - checkInMs)
    ensures n > 0 ==> (n - 1) * MsPerDay < Abs(checkOutMs - checkInMs)
  {
    CeilDiv(Abs(checkOutMs - checkInMs), MsPerDay)
  }

  /** The night count is symmetric in its arguments and zero for equal instants. */
  lemma NightsSymmetric(a: int, b: int)
    ensures CalculateNights(a, b) == CalculateNights(b, a)
    ensures CalculateNights(a, a) == 0
  {
  }

  /** The rounded-up quotient is the unique count characterised by the ceiling bounds. */
  lemma CeilingUnique(n: nat, k: nat, m: nat)
    requires m > 0
    requires n * m >= k * m
    requires n > 0 ==> (n - 1) * m < k * m
    ensures n == k
  {
  }

  lemma MulMono(x: nat, y: nat, m: nat)
    requires x <= y
    ensures x * m <= y * m
  {
    assert y * m == x * m + (y - x) * m;
  }

  /** Cancelling a positive factor from a strict inequality. */
  lemma MulLessCancel(x: nat, y: nat, m: nat)
    requires m > 0 && x * m < y * m
    ensures x < y
  {
    if x >= y {
      MulMono(y, x, m);
    }
  }

  /** For dates at midnight (whole days apart) the night count is exactly the
      difference in days. */
  lemma {:induction false} NightsOfWholeDays(d1: int, d2: int)
    ensures CalculateNights(d1 * MsPerDay, d2 * MsPerDay) == Abs(d2 - d1)
  {
    var n := CalculateNights(d1 * MsPerDay, d2 * MsPerDay);
    var k := Abs(d2 - d1);
    assert d2 * MsPerDay - d1 * MsPerDay == (d2 - d1) * MsPerDay;
    assert Abs(d2 * MsPerDay - d1 * MsPerDay) == k * MsPerDay;
    CeilingUnique(n, k, MsPerDay);
  }

  // ---------------------------------------------------------------------
  // Decimal text

  predicate IsDigit(c: char) {
    '0' <= c <= '9'
  }

  predicate AllDigits(s: string) {
    forall i :: 0 <= i < |s| ==> IsDigit(s[i])
  }

  function DigitChar(d: nat): (c: char)
    requires d < 10
    ensures IsDigit(c) && c as int - '0' as int == d
  {
    ('0' as int + d) as char
  }

  function Pow10(n: nat): (p: nat)
    ensures p >= 1
  {
    if n == 0 then 1 else 10 * Pow10(n - 1)
  }

  /** The numeric value of a string of decimal digits. */
  function DecimalValue(s: string): nat
    requires AllDigits(s)
  {
    if |s| == 0 then 0
    else DecimalValue(s[..|s| - 1]) * 10 + (s[|s| - 1] as int - '0' as int)
  }

  /** `Number.prototype.toString()` on a non-negative integer: the shortest
      decimal text, `"0"` for zero. */
  function ToDecimal(v: nat): (s: string)
    ensures AllDigits(s) && |s| >= 1
    ensures DecimalValue(s) == v
    ensures v < 10 ==> |s| == 1
    ensures v >= 10 ==> |s| == |ToDecimal(v / 10)| + 1
  {
    if v < 10 then [DigitChar(v)]
    else
      var s := ToDecimal(v / 10) + [DigitChar(v % 10)];
      assert s[..|s| - 1] == ToDecimal(v / 10);
      s
  }

  /** Shortest decimal text fits in `w` characters when `v < 10^w`. */
  lemma {:induction false} ToDecimalLength(v: nat, w: nat)
    requires 1 <= w && v < Pow10(w)
    ensures |ToDecimal(v)| <= w
  {
    if v >= 10 {
      assert Pow10(1) == 10;
      assert w >= 2;
      assert v / 10 < Pow10(w - 1);
      ToDecimalLength(v / 10, w - 1);
    }
  }

  function Zeros(n: nat): (s: string)
    ensures |s| == n && AllDigits(s)
    ensures forall i :: 0 <= i < n ==> s[i] == '0'
  {
    if n == 0 then "" else Zeros(n - 1) + "0"
  }

  /** `s.padStart(w, '0')`. */
  function PadStart(s: string, w: nat): (r: string)
    ensures |r| == if |s| < w then w else |s|
    ensures AllDigits(s) ==> AllDigits(r)
  {
    if |s| < w then Zeros(w - |s|) + s else s
  }

  /** Leading zeros do not change a decimal value. */
  lemma {:induction false} LeadingZerosValue(n: nat, s: string)
    requires AllDigits(s)
    ensures AllDigits(Zeros(n) + s)
    ensures DecimalValue(Zeros(n) + s) == DecimalValue(s)
    decreases |s|
  {
    var t := Zeros(n) + s;
    if |s| == 0 {
      assert t == Zeros(n);
      ZerosValue(n);
    } else {
      assert t[..|t| - 1] == Zeros(n) + s[..|s| - 1];
      assert t[|t| - 1] == s[|s| - 1];
      LeadingZerosValue(n, s[..|s| - 1]);
    }
  }

  lemma {:induction false} ZerosValue(n: nat)
    ensures DecimalValue(Zeros(n)) == 0
  {
    if n > 0 {
      assert Zeros(n)[..n - 1] == Zeros(n - 1);
      ZerosValue(n - 1);
    }
  }

  /** `v.toString().padStart(w, '0')` for a value that fits in `w` digits:
      exactly `w` digits whose value is `v`. */
  function PadDecimal(v: nat, w: nat): (s: string)
    requires 1 <= w && v < Pow10(w)
    ensures |s| == w && AllDigits(s)
    ensures DecimalValue(s) == v
  {
    ToDecimalLength(v, w);
    LeadingZerosValue(w - |ToDecimal(v)|, ToDecimal(v));
    PadStart(ToDecimal(v), w)
  }

  // ---------------------------------------------------------------------
  // generateBookingId

  /** A proleptic Gregorian calendar date as `toISOString` prints it. */
  datatype CivilDate = CivilDate(year: nat, month: nat, day: nat) {
    predicate Valid() {
      year <= 9999 && 1 <= month <= 12 && 1 <= day <= 31
    }
  }

  /** A calendar date whose year has four digits. */
  type StampDate = d: CivilDate | d.Valid() witness CivilDate(1970, 1, 1)

  /** `Math.floor(Math.random() * 1000)`: a value in [0, 999]. */
  type Suffix = r: nat | r < 1000

  /** `toISOString().slice(0, 10)`: `YYYY-MM-DD`. */
  function IsoDate(d: StampDate): (s: string)
    ensures |s| == 10
  {
    PadDecimal(d.year, 4) + "-" + PadDecimal(d.month, 2) + "-" + PadDecimal(d.day, 2)
  }

  /** `s.replace(/-/g, '')`. */
  function RemoveDashes(s: string): (r: string)
    ensures |r| <= |s|
    ensures forall i :: 0 <= i < |r| ==> r[i] != '-'
    ensures (forall i :: 0 <= i < |s| ==> s[i] != '-') ==> r == s
  {
    if |s| == 0 then ""
    else if s[0] == '-' then RemoveDashes(s[1..])
    else [s[0]] + RemoveDashes(s[1..])
  }

  lemma RemoveDashesAppend(a: string, b: string)
    ensures RemoveDashes(a + b) == RemoveDashes(a) + RemoveDashes(b)
  {
    if |a| > 0 {
      assert (a + b)[1..] == a[1..] + b;
    } else {
      assert a + b == b;
    }
  }

  /** The 8-digit `YYYYMMDD` stamp: the ISO date with its dashes removed. */
  function DateStamp(d: StampDate): (s: string)
    ensures s == PadDecimal(d.year, 4) + PadDecimal(d.month, 2) + PadDecimal(d.day, 2)
  {
    DashesRemovedFromIso(PadDecimal(d.year, 4), PadDecimal(d.month, 2), PadDecimal(d.day, 2));
    RemoveDashes(IsoDate(d))
  }

  lemma DashesRemovedFromIso(y: string, m: string, dd: string)
    requires AllDigits(y) && AllDigits(m) && AllDigits(dd)
    ensures RemoveDashes(y + "-" + m + "-" + dd) == y + m + dd
  {
    var a := y + "-";
    var b := a + m;
    var c := b + "-";
    assert RemoveDashes("-") == "" by {
      assert "-"[0] == '-' && "-"[1..] == "";
    }
    NoDashInDigits(y);
    NoDashInDigits(m);
    NoDashInDigits(dd);
    RemoveDashesAppend(y, "-");
    assert RemoveDashes(a) == y;
    RemoveDashesAppend(a, m);
    assert RemoveDashes(b) == y + m;
    RemoveDashesAppend(b, "-");
    assert RemoveDashes(c) == y + m;
    RemoveDashesAppend(c, dd);
  }

  lemma NoDashInDigits(s: string)
    requires AllDigits(s)
    ensures RemoveDashes(s) == s
  {
    assert forall i :: 0 <= i < |s| ==> s[i] != '-' by {
      forall i | 0 <= i < |s| ensures s[i] != '-' {
        assert IsDigit(s[i]);
      }
    }
  }

  /** `generateBookingId`: `TSN`, the UTC creation date as `YYYYMMDD`, and the
      random value zero-padded to three digits. The clock and `Math.random`
      are parameters. Every slice of the reference decodes back to the part it
      was built from. */
  function GenerateBookingId(d: StampDate, r: Suffix): (id: string)
    ensures |id| == 14
    ensures id[..3] == "TSN"
    ensures AllDigits(id[3..])
    ensures AllDigits(id[3..7]) && DecimalValue(id[3..7]) == d.year
    ensures AllDigits(id[7..9]) && DecimalValue(id[7..9]) == d.month
    ensures AllDigits(id[9..11]) && DecimalValue(id[9..11]) == d.day
    ensures |id[11..]| == 3 && AllDigits(id[11..]) && DecimalValue(id[11..]) == r
  {
    var y, m, dd := PadDecimal(d.year, 4), PadDecimal(d.month, 2), PadDecimal(d.day, 2);
    var suffix := PadDecimal(r, 3);
    var id := "TSN" + DateStamp(d) + suffix;
    DigitsSlices(y, m, dd, suffix);
    id
  }

  /** The parts of `TSN` followed by four digit strings of widths 4, 2, 2
      and 3 sit at fixed positions. */
  lemma DigitsSlices(y: string, m: string, dd: string, suffix: string)
    requires |y| == 4 && |m| == 2 && |dd| == 2 && |suffix| == 3
    requires AllDigits(y) && AllDigits(m) && AllDigits(dd) && AllDigits(suffix)
    ensures var id := "TSN" + (y + m + dd) + suffix;
            && id[..3] == "TSN" && id[3..7] == y && id[7..9] == m && id[9..11] == dd && id[11..] == suffix
            && AllDigits(id[3..])
  {
    var id := "TSN" + (y + m + dd) + suffix;
    assert id[3..] == y + m + dd + suffix;
  }

  /** Two references are equal only if they were made on the same date with
      the same random value. */
  lemma BookingIdInjective(d1: StampDate, r1: Suffix, d2: StampDate, r2: Suffix)
    requires GenerateBookingId(d1, r1) == GenerateBookingId(d2, r2)
    ensures d1 == d2 && r1 == r2
  {
  }

  // ---------------------------------------------------------------------
  // formatResponse and parseSingleRow

  /** The JSON envelope every route answers with. */
  datatype Response<T> = Response(success: bool, message: Option<string>, error: Option<string>, data: Option<T>)

  /** `formatResponse`: `success` always; `message` and `error` only when
      non-empty (truthy); `data` exactly when it is not `undefined` (`None`). */
  function FormatResponse<T>(success: bool, data: Option<T>, message: string, error: string): (r: Response<T>)
    ensures r.success == success
    ensures r.message.Some? <==> message != ""
    ensures r.message.Some? ==> r.message.value == message
    ensures r.error.Some? <==> error != ""
    ensures r.error.Some? ==> r.error.value == error
    ensures r.data == data
  {
    Response(success,
             if message != "" then Some(message) else None,
             if error != "" then Some(error) else None,
             data)
  }

  /** `parseSingleRow`: the first row, or null for an empty result set. */
  function ParseSingleRow<T>(rows: seq<T>): (r: Option<T>)
    ensures r.None? <==> |rows| == 0
    ensures r.Some? ==> r.value == rows[0]
  {
    if |rows| > 0 then Some(rows[0]) else None
  }
}

=== FILE: results.dfy ===
/** Shared failure-carrying datatypes and the JSON-like values that arrive in
    request bodies. Every route handler of the booking back-end is modelled as
    a function returning a `Result`; the HTTP status classes become the
    variants of `ApiError`. */
module Results {

  datatype Option<+T> = None | Some(value: T) {
    function GetOr(default: T): T {
      match this
      case Some(v) => v
      case None => default
    }
  }

  /** The error classes the routes answer with, each carrying the
      human-readable message the route sends back. */
  datatype ApiError =
    | BadRequest(msg: string)       // 400
    | Unauthorized(msg: string)     // 401
    | Forbidden(msg: string)        // 403
    | NotFound(msg: string)         // 404
    | Unavailable(msg: string)      // 503
    | ServerError(msg: string)      // 500: a statement the store refused

  datatype Result<+T> = Ok(value: T) | Err(error: ApiError) {
    predicate IsFailure() { Err? }
    function PropagateFailure<U>(): Result<U>
      requires Err?
    {
      Err(error)
    }
    function Extract(): T
      requires Ok?
    {
      value
    }
  }

  /** A parsed JSON request value. `JObject` keeps its members in the order
      `Object.entries` would list them. */
  datatype Json =
    | JNull
    | JBool(b: bool)
    | JNum(n: int)
    | JStr(s: string)
    | JArray(items: seq<Json>)
    | JObject(members: seq<(string, Json)>)

  /** JavaScript's `x || null` on an optional string: the empty string is
      falsy and collapses to NULL. */
  function OrNull(o: Option<string>): (r: Option<string>)
    ensures r.Some? <==> o.Some? && o.value != ""
    ensures r.Some? ==> r.value == o.value
  {
    match o
    case Some(s) => if s != "" then Some(s) else None
    case None => None
  }
}

=== FILE: schema.dfy ===
/** The tables of the booking back-end as immutable records. Dates are day
    numbers, money is in minor currency units, and each table is either an
    AUTO_INCREMENT `Table` or, for bookings and settings, a map keyed by the
    string primary key. */
module Schema {
  import opened Results
  import opened Tables

  /** A calendar date as a day number. */
  type Day = int

  /** An amount in minor currency units. */
  type Money = int

  /** An instant (`NOW()`), as supplied by the store's clock. */
  type Instant = int

  datatype BookingStatus = Pending | Confirmed | Cancelled | Completed | NoShow

  /** The statuses that hold a room: only these count for conflicts, for
      availability and for the delete guards. */
  predicate IsActive(s: BookingStatus) {
    s == Pending || s == Confirmed
  }

  /** The enum text stored in `bookings.booking_status`. */
  function StatusName(s: BookingStatus): string {
    match s
    case Pending => "pending"
    case Confirmed => "confirmed"
    case Cancelled => "cancelled"
    case Completed => "completed"
    case NoShow => "no_show"
  }

  /** Membership in `validStatuses`: exactly the five enum texts parse. */
  function ParseStatus(t: string): (r: Option<BookingStatus>)
    ensures r.Some? ==> StatusName(r.value) == t
    ensures (exists s :: StatusName(s) == t) ==> r.Some?
  {
    if t == "pending" then Some(Pending)
    else if t == "confirmed" then Some(Confirmed)
    else if t == "cancelled" then Some(Cancelled)
    else if t == "completed" then Some(Completed)
    else if t == "no_show" then Some(NoShow)
    else None
  }

  /** Every status survives printing and parsing. */
  lemma StatusRoundTrip(s: BookingStatus)
    ensures ParseStatus(StatusName(s)) == Some(s)
  {
  }

  datatype Facility = Facility(name: string, icon: Option<string>)

  /** A row of `rooms` together with its `room_facilities`. `finalPrice` is
      the stored discounted nightly price. */
  datatype Room = Room(
    roomNumber: string,
    title: string,
    categoryId: nat,
    shortTagline: Option<string>,
    longDescription: Option<string>,
    price: Money,
    offerPercentage: int,
    finalPrice: Money,
    thumbnail: Option<string>,
    isAvailable: bool,
    isEnabled: bool,
    facilities: seq<Facility>)

  /** A row of `bookings`; its `booking_id` is the key of the bookings map. */
  datatype Booking = Booking(
    userId: nat,
    roomId: nat,
    guestName: string,
    guestEmail: string,
    guestPhone: string,
    checkIn: Day,
    checkInTime: string,
    checkOut: Day,
    checkOutTime: string,
    numAdults: int,
    numMinors: int,
    minorAges: seq<int>,
    pricePerNight: Money,
    totalNights: nat,
    totalAmount: Money,
    paymentMethod: string,
    upiApp: Option<string>,
    paymentStatus: string,
    status: BookingStatus,
    adminRemarks: Option<string>,
    createdAt: Instant,
    confirmedAt: Option<Instant>,
    cancelledAt: Option<Instant>,
    updatedAt: Option<Instant>)

  datatype Category = Category(
    name: string,
    slug: string,
    icon: string,
    description: Option<string>,
    totalCapacity: int,
    displayOrder: int,
    isEnabled: bool,
    availableCount: int)

  datatype User = User(
    fullName: string,
    email: string,
    mobile: string,
    passwordHash: string,
    isActive: bool,
    createdAt: Instant)

  datatype Admin = Admin(email: string, isActive: bool)

  /** The `setting_type` column. Rows written by the settings route carry one
      of the first four; any other text is kept as `Other`. */
  datatype SettingType = TString | TNumber | TBoolean | TJson | TOther(name: string)

  datatype Setting = Setting(value: string, typ: SettingType, updatedBy: Option<nat>)

  type BookingId = string

  /** The whole database. */
  datatype Db = Db(
    rooms: Table<Room>,
    bookings: map<BookingId, Booking>,
    categories: Table<Category>,
    users: Table<User>,
    admins: Table<Admin>,
    settings: map<string, Setting>)
  {
    /** The AUTO_INCREMENT tables are well formed. */
    predicate Valid() {
      rooms.Valid() && categories.Valid() && users.Valid() && admins.Valid()
    }
  }

  /** A successful route: the database after its writes and the data it
      answers with. */
  datatype Reply<T> = Reply(db: Db, data: T)
}

=== FILE: tables.dfy ===
/** A relational table with an AUTO_INCREMENT primary key: rows keyed by id
    and the next id the store will hand out. */
module Tables {
  import opened Results

  datatype Table<T> = Table(rows: map<nat, T>, next: nat) {
    /** Every stored id was handed out before `next`; ids start at 1. */
    predicate Valid() {
      && 1 <= next
      && forall k :: k in rows ==> 1 <= k < next
    }
  }

  function EmptyTable<T>(): (t: Table<T>)
    ensures t.Valid() && t.rows == map[]
  {
    Table(map[], 1)
  }

  /** INSERT: the new row gets the next id, which no stored row holds. */
  function Insert<T>(t: Table<T>, v: T): (r: (Table<T>, nat))
    requires t.Valid()
    ensures r.0.Valid()
    ensures r.1 !in t.rows && r.1 in r.0.rows && r.0.rows[r.1] == v
    ensures r.0.rows.Keys == t.rows.Keys + {r.1}
    ensures forall k :: k in t.rows ==> r.0.rows[k] == t.rows[k]
  {
    (Table(t.rows[t.next := v], t.next + 1), t.next)
  }

  /** UPDATE ... WHERE id = k: a missing id matches no row and changes nothing. */
  function UpdateRow<T>(t: Table<T>, k: nat, v: T): (r: Table<T>)
    ensures r.rows.Keys == t.rows.Keys && r.next == t.next
    ensures k in t.rows ==> r.rows[k] == v
    ensures forall j :: j in t.rows && j != k ==> r.rows[j] == t.rows[j]
    ensures k !in t.rows ==> r == t
  {
    if k in t.rows then Table(t.rows[k := v], t.next) else t
  }

  /** DELETE ... WHERE id = k. */
  function DeleteRow<T>(t: Table<T>, k: nat): (r: Table<T>)
    ensures r.rows.Keys == t.rows.Keys - {k} && r.next == t.next
    ensures forall j :: j in r.rows ==> r.rows[j] == t.rows[j]
    ensures t.Valid() ==> r.Valid()
  {
    Table(t.rows - {k}, t.next)
  }

  /** `a` is `b` with some elements left out and the rest in their order:
      what a filter over an ordered result returns. */
  predicate Subsequence<T(==)>(a: seq<T>, b: seq<T>)
    decreases |b|
  {
    if |a| == 0 then true
    else if |b| == 0 then false
    else (a[0] == b[0] && Subsequence(a[1..], b[1..])) || Subsequence(a, b[1..])
  }

  /** The elements of `s` that satisfy `p`, in order: a `WHERE` over an
      ordered result. */
  function Select<T>(s: seq<T>, p: T -> bool): seq<T> {
    if |s| == 0 then []
    else if p(s[0]) then [s[0]] + Select(s[1..], p)
    else Select(s[1..], p)
  }

  /** `Select` keeps exactly the elements that satisfy `p`: its result is a
      subsequence of `s` holding each such element as often as `s` does and
      nothing else; when every element satisfies `p` it is `s` itself. */
  lemma SelectExact<T>(s: seq<T>, p: T -> bool)
    ensures Subsequence(Select(s, p), s)
    ensures forall x :: multiset(Select(s, p))[x] == if p(x) then multiset(s)[x] else 0
    ensures forall i :: 0 <= i < |Select(s, p)| ==> p(Select(s, p)[i]) && Select(s, p)[i] in s
    ensures (forall i :: 0 <= i < |s| ==> p(s[i])) ==> Select(s, p) == s
  {
    SelectIsSubsequence(s, p);
    SelectCounts(s, p);
    SelectMembers(s, p);
    if forall i :: 0 <= i < |s| ==> p(s[i]) {
      SelectAll(s, p);
    }
  }

  lemma {:induction false} SelectIsSubsequence<T>(s: seq<T>, p: T -> bool)
    ensures Subsequence(Select(s, p), s)
  {
    if |s| > 0 {
      var t := Select(s[1..], p);
      SelectIsSubsequence(s[1..], p);
      if p(s[0]) {
        assert ([s[0]] + t)[0] == s[0] && ([s[0]] + t)[1..] == t;
      }
    }
  }

  lemma {:induction false} SelectCounts<T>(s: seq<T>, p: T -> bool)
    ensures forall x :: multiset(Select(s, p))[x] == if p(x) then multiset(s)[x] else 0
  {
    if |s| > 0 {
      SelectCounts(s[1..], p);
      assert s == [s[0]] + s[1..];
      assert multiset(s) == multiset{s[0]} + multiset(s[1..]);
    }
  }

  lemma {:induction false} SelectMembers<T>(s: seq<T>, p: T -> bool)
    ensures forall i :: 0 <= i < |Select(s, p)| ==> p(Select(s, p)[i]) && Select(s, p)[i] in s
  {
    if |s| > 0 {
      SelectMembers(s[1..], p);
      assert forall x :: x in s[1..] ==> x in s;
    }
  }

  lemma {:induction false} SelectAll<T>(s: seq<T>, p: T -> bool)
    requires forall i :: 0 <= i < |s| ==> p(s[i])
    ensures Select(s, p) == s
  {
    if |s| > 0 {
      assert forall i :: 0 <= i < |s[1..]| ==> p(s[1..][i]);
      SelectAll(s[1..], p);
      assert s == [s[0]] + s[1..];
    }
  }

  /** `Select` works element by element, so it distributes over
      concatenation. */
  lemma {:induction false} SelectAppend<T>(a: seq<T>, b: seq<T>, p: T -> bool)
    ensures Select(a + b, p) == Select(a, p) + Select(b, p)
    decreases |a|
  {
    if |a| > 0 {
      assert (a + b)[0] == a[0] && (a + b)[1..] == a[1..] + b;
      SelectAppend(a[1..], b, p);
    } else {
      assert a + b == b;
    }
  }

  /** Some stored row satisfies `p` (a `SELECT ... WHERE p` that is non-empty). */
  predicate AnyRow<T>(t: Table<T>, p: T -> bool) {
    exists k :: k in t.rows && p(t.rows[k])
  }

  /** The first row, in primary-key order, that satisfies `p`: what
      `parseSingleRow` returns for a `SELECT ... WHERE p` scanned by id. */
  function FindFirst<T>(t: Table<T>, p: T -> bool): (r: Option<nat>)
    requires t.Valid()
    ensures r.Some? ==> r.value in t.rows && p(t.rows[r.value])
    ensures r.Some? ==> forall k :: k in t.rows && k < r.value ==> !p(t.rows[k])
    ensures r.None? <==> !AnyRow(t, p)
  {
    ScanFrom(t, p, 0)
  }

  function ScanFrom<T>(t: Table<T>, p: T -> bool, from: nat): (r: Option<nat>)
    requires t.Valid()
    ensures r.Some? ==> from <= r.value && r.value in t.rows && p(t.rows[r.value])
    ensures r.Some? ==> forall k :: k in t.rows && from <= k < r.value ==> !p(t.rows[k])
    ensures r.None? ==> forall k :: k in t.rows && from <= k ==> !p(t.rows[k])
    decreases t.next - from
  {
    if from >= t.next then None
    else if from in t.rows && p(t.rows[from]) then Some(from)
    else ScanFrom(t, p, from + 1)
  }
}
